=== FILE: README.md ===
# Simple Notes: a Dafny model of the notes front end

This project models the logic of a small notes web application, as pure functions with proved contracts. It covers:

- the environment helpers that configure it;
- the REST client for the notes service;
- the local-storage stub that stands in when the service is absent;
- the repository that decides, once per session, which of the two holds the notes and falls back to local storage for good on any remote failure;
- the pure parts of the three panels: sidebar list, viewer and editor;
- the application root's state machine.

Modules follow the source files:

| module | file | models |
|---|---|---|
| `Wrappers` | wrappers.dfy | `Option` (null/undefined), `Result` (a value or a thrown error) |
| `Text` | text.dfy | the JavaScript string built-ins the code relies on: `trim`, `\s`, `replace(/\s+/g, " ")`, `split`, `includes`, `toLowerCase`, number printing, `localeCompare` |
| `NoteModel` | note_model.dfy | notes as stored and as sent, lookup by id |
| `Env` | env.dfy | `utils/env.js` |
| `NotesApi` | notes_api.dfy | `services/notesApi.js` |
| `NotesStub` | notes_stub.dfy | `services/notesStub.js` |
| `NotesRepository` | notes_repository.dfy | `services/notesRepository.js` |
| `NotesList`, `NoteViewer`, `NoteEditor` | notes_list.dfy, note_viewer.dfy, note_editor.dfy | the pure helpers and render decisions of the three components |
| `App` | app.dfy | `App.js` |

State that the source keeps outside a function becomes explicit:

- The repository's `cachedMode` module variable is a `Session` threaded through each operation.
- The local-storage value is a `Slot`: `None` when the key is absent or does not hold an array.
- The outside world becomes parameters:
  - the environment is a map;
  - the network's answers are `Transport` values, one for the reachability ping and one for the operation's own request;
  - the id generator and the clock are a `Draws` record per stub operation;
  - `JSON.parse` and `encodeURIComponent` are function parameters.
- Each repository operation returns the client calls it made, in order. This makes "no second ping" and "no remote call once in stub mode" statable.
- Each asynchronous handler of the application root is modelled by its final state plus the repository calls it makes.

## Model

| member | source | states |
|---|---|---|
| Text.Trim | frontend_app/src/utils/env.js:10-11 | the result is the slice of the input between its leading and trailing whitespace; it is empty exactly when the input is all whitespace, and otherwise has visible characters at both ends |
| Text.TrimIdempotent | frontend_app/src/utils/env.js:10-11 | trimming a trimmed string changes nothing |
| Text.TrimFixed | frontend_app/src/components/NoteEditor.js:34 | a string with visible characters at both ends is its own trim |
| Text.NonSpaceTrim | frontend_app/src/components/NotesList.js:9 | trimming removes whitespace only: the visible characters are kept, in order |
| Text.NonSpacePrefix | frontend_app/src/components/NotesList.js:11 | cutting a string keeps a prefix of its visible characters |
| Text.CollapseSpaces | frontend_app/src/components/NotesList.js:9 | `replace(/\s+/g, " ")` keeps the visible characters in order, leaves no whitespace but U+0020, never two whitespace characters side by side, and starts with whitespace exactly when the input does |
| Text.CollapseWord | frontend_app/src/components/NotesList.js:9 | a run of visible characters is copied to the front of the result unchanged |
| Text.CollapseRun | frontend_app/src/components/NotesList.js:9 | a whole run of whitespace at the front becomes exactly one space, ahead of the collapsed rest |
| Text.CollapseInPlace | frontend_app/src/components/NotesList.js:9 | a word, a whitespace run and a rest starting with a visible character collapse to the word, one space, and the collapsed rest; a word alone is unchanged |
| Text.JoinSplit | frontend_app/src/utils/env.js:41-42 | splitting on a separator and joining the parts back with it gives the original string |
| Text.StripTrailingIdempotent | frontend_app/src/services/notesApi.js:14 | removing a trailing run of one character twice is the same as once |
| Text.DecimalRoundTrip | frontend_app/src/components/NotesList.js:23 | reading the printed decimal back gives the number |
| Text.LexLeTotal | frontend_app/src/services/notesStub.js:48 | any two strings compare one way or the other |
| Text.LexLeTransitive | frontend_app/src/services/notesStub.js:48 | the string order is transitive |
| Text.LexLeAntisymmetric | frontend_app/src/services/notesStub.js:48 | two strings that compare both ways are equal |
| NoteModel.IndexOf | frontend_app/src/services/notesStub.js:84 | the index found holds the id and no earlier note does; none is found exactly when no note holds the id |
| NoteModel.IndexOfFirst | frontend_app/src/services/notesStub.js:84 | the first note holding the id is the one found |
| Env.GetEnv | frontend_app/src/utils/env.js:6-12 | an unset or blank variable yields the fallback; a set one yields its trimmed value, which is non-empty with visible ends |
| Env.ApiBaseUrl | frontend_app/src/utils/env.js:15-22 | REACT_APP_API_BASE takes precedence over REACT_APP_BACKEND_URL; the result is empty exactly when neither is set to something visible |
| Env.FlagsFromSegments | frontend_app/src/utils/env.js:41-48 | the flags are exactly the non-blank trimmed comma-separated names, each set to true |
| Env.FeatureFlags | frontend_app/src/utils/env.js:25-49 | unset gives no flags; text that parses as an object gives that object; otherwise the comma-separated list is used |
| Env.ExperimentsEnabled | frontend_app/src/utils/env.js:52-56 | on exactly when the variable is set and its trimmed lower-cased value is one of 1, true, yes, on |
| Env.ExperimentsCaseAndSpace | frontend_app/src/utils/env.js:54-55 | " Yes\n" switches experiments on: case and surrounding whitespace are ignored |
| Env.ExperimentsIgnoreSpace | frontend_app/src/utils/env.js:52-56 | whitespace around the value never changes whether experiments are on |
| Env.ExperimentsIgnoreCase | frontend_app/src/utils/env.js:52-56 | lower-casing the value never changes whether experiments are on |
| NotesApi.NormalizeBase | frontend_app/src/services/notesApi.js:13-15 | the result is the base with its trailing slashes removed, and never ends in a slash |
| NotesApi.NormalizeBaseIdempotent | frontend_app/src/services/notesApi.js:13-15 | normalising a normalised base changes nothing |
| NotesApi.JoinUrl | frontend_app/src/services/notesApi.js:25 | the URL is the base followed by the path, with a slash put in between exactly when the path does not start with one |
| NotesApi.RouteOf | frontend_app/src/services/notesApi.js:64-105 | each client call's method, path and body: GET for ping, list and get; POST for create; PUT for update; DELETE for delete; a body exactly for create and update; the id, encoded, after `/notes/` exactly for get, update and delete |
| NotesApi.Classify | frontend_app/src/services/notesApi.js:35-61 | an unreachable service is a network error; a status outside 200-299 is an HTTP error carrying the status and URL; 204 gives null; a JSON content type gives the parsed body; other bodies are wrapped as `{data}` or give null when empty |
| NotesApi.RequestJson | frontend_app/src/services/notesApi.js:17-62 | nothing is sent exactly when the normalised base is empty, and then the error is the missing base URL; otherwise the request carries the route's method and body to the joined URL and the answer is classified |
| NotesApi.PingNotesApi | frontend_app/src/services/notesApi.js:65-69 | the ping succeeds, with true, exactly when a GET of `/notes` succeeds, and otherwise fails with that request's error |
| NotesApi.SlashOnlyBase | frontend_app/src/services/notesApi.js:13-23 | a base of only slashes counts as unconfigured: nothing is sent |
| NotesStub.NormalizeNote | frontend_app/src/services/notesStub.js:10-18 | the id is kept; a present title, content or timestamp is kept; a missing title or content becomes empty and a missing timestamp becomes the current time |
| NotesStub.NormalizeNoteIdempotent | frontend_app/src/services/notesStub.js:10-18 | normalising twice, even at a later time, is the same as once |
| NotesStub.NormalizeStamped | frontend_app/src/services/notesStub.js:10-18 | a note that already has both timestamps is left as it is |
| NotesStub.NormalizeAll | frontend_app/src/services/notesStub.js:22 | every stored record is normalised, in order |
| NotesStub.Stored | frontend_app/src/services/notesStub.js:40-45 | what is written is the notes, one record each, in order |
| NotesStub.ReadAll | frontend_app/src/services/notesStub.js:20-38 | a stored array is read back normalised and the slot untouched; an absent one seeds the single welcome note and writes it |
| NotesStub.WriteAll | frontend_app/src/services/notesStub.js:40-45 | notes with both timestamps are stored as they are |
| NotesStub.ReadAfterWrite | frontend_app/src/services/notesStub.js:20-45 | reading what was written gives back the same notes and writes nothing |
| NotesStub.SeedOnce | frontend_app/src/services/notesStub.js:24-37 | the welcome note is seeded once: the second read sees the first read's notes |
| NotesStub.SortedDescAllPairs | frontend_app/src/services/notesStub.js:47-49 | in a list sorted by `updatedAt` descending, every earlier note is at least as recent as every later one |
| NotesStub.Insert | frontend_app/src/services/notesStub.js:48 | inserting into a sorted list keeps it sorted and adds exactly that note |
| NotesStub.SortByUpdatedDesc | frontend_app/src/services/notesStub.js:47-49 | the result is sorted most recent first and is a permutation of the input |
| NotesStub.SortKeepsOrdered | frontend_app/src/services/notesStub.js:47-49 | an already sorted list is returned unchanged |
| NotesStub.Without | frontend_app/src/services/notesStub.js:104 | exactly the notes without the id remain; with no such note the list is unchanged |
| NotesStub.WithoutAppend | frontend_app/src/services/notesStub.js:104 | filtering a concatenation filters each part |
| NotesStub.StubList | frontend_app/src/services/notesStub.js:52-55 | the listing is a permutation of the stored notes, most recently updated first |
| NotesStub.StubGet | frontend_app/src/services/notesStub.js:58-62 | the first note with the id, or null exactly when none has it; only first-run seeding writes |
| NotesStub.StubCreate | frontend_app/src/services/notesStub.js:65-78 | the new note has the fresh id, a creation stamp from the first clock reading and an update stamp from the second; a missing title becomes "Untitled", missing content becomes empty; it is stored at the head with the previous notes after it |
| NotesStub.StubUpdate | frontend_app/src/services/notesStub.js:81-98 | an unknown id gives null and writes nothing beyond seeding; otherwise only the first note with the id changes, keeping its id and creation time, taking the fields the payload gives and the current update time |
| NotesStub.StubDelete | frontend_app/src/services/notesStub.js:101-107 | always true; the stored notes become those without the id |
| NotesStub.DeleteMissingKeepsList | frontend_app/src/services/notesStub.js:101-107 | deleting an unknown id still answers true and leaves the notes as they were |
| NotesStub.UpdateThenGet | frontend_app/src/services/notesStub.js:58-98 | after updating a title, getting the note shows the new title, the old content and the update time |
| NotesStub.CreateThenList | frontend_app/src/services/notesStub.js:47-78 | a note created no earlier than the stored ones lists first, ahead of the previous listing |
| NotesStub.ListNewestFirst | frontend_app/src/services/notesStub.js:47-78 | notes A, B, C created in order at increasing times list as C, B, A |
| NotesRepository.ModeName | frontend_app/src/services/notesRepository.js:19 | the two modes are reported as "remote" and "stub" |
| NotesRepository.FollowsTransitive | frontend_app/src/services/notesRepository.js:19 | the forward-only order on cached modes composes |
| NotesRepository.ShouldTryRemote | frontend_app/src/services/notesRepository.js:21-32 | never without a base URL; otherwise the flag's value when the flag is present, and yes when it is absent |
| NotesRepository.TryRemoteWithoutFlags | frontend_app/src/services/notesRepository.js:21-32 | with no feature flags set, the service is tried exactly when REACT_APP_API_BASE or REACT_APP_BACKEND_URL is set |
| NotesRepository.TryRemoteWhenListed | frontend_app/src/services/notesRepository.js:21-32 | a comma-separated flag list that names the remote flag, with a base URL, makes the service be tried |
| NotesRepository.NoRemoteWhenDisabled | frontend_app/src/services/notesRepository.js:26-28 | a flag object that sets the remote flag to false stops the service from being tried |
| NotesRepository.DetectMode | frontend_app/src/services/notesRepository.js:34-49 | a cached mode is returned with no ping; otherwise stub without pinging when remote is not to be tried, else remote exactly when the ping succeeds; the answer is always cached |
| NotesRepository.GetRepositoryMode | frontend_app/src/services/notesRepository.js:144-147 | a cached mode is returned unchanged with no call; otherwise stub when remote is not to be tried, else remote exactly when the ping succeeds, with one ping; the answer is cached |
| NotesRepository.NormalizeFromApi | frontend_app/src/services/notesRepository.js:51-60 | a falsy answer is returned as is (modelled as None); otherwise id and timestamps are copied and a missing title or content becomes empty |
| NotesRepository.NormalizeCanonical | frontend_app/src/services/notesRepository.js:51-60 | a note already in canonical shape normalises to itself |
| NotesRepository.NormalizationsAgree | frontend_app/src/services/notesRepository.js:51-60 | for records with both timestamps, the remote and local normalisations agree |
| NotesRepository.NormalizeEach | frontend_app/src/services/notesRepository.js:65 | every element is normalised, in order |
| NotesRepository.NormalizeListFromApi | frontend_app/src/services/notesRepository.js:62-66 | an array is used as is, an object's `items` array is used, and anything else gives an empty list |
| NotesRepository.ListShapesAgree | frontend_app/src/services/notesRepository.js:62-66 | a bare array and an object carrying the same array as `items` give the same list, one entry per element |
| NotesRepository.Dispatch | frontend_app/src/services/notesRepository.js:69-141 | the session stays or becomes remote exactly when it resolves to remote and the remote call succeeds, and then the normalised answer is returned; otherwise stub is cached for good and the local result returned; the calls are the mode resolution's followed by the operation's own call exactly in remote mode |
| NotesRepository.ListNotes | frontend_app/src/services/notesRepository.js:69-81 | remote serves the listing exactly when the session resolves to remote and the call succeeds, answering with the normalised list; otherwise the local listing; the session is always resolved afterwards; the calls made are pinned; the mode only moves forward |
| NotesRepository.GetNote | frontend_app/src/services/notesRepository.js:84-96 | remote serves the lookup exactly when the session resolves to remote and the call succeeds; otherwise the local lookup; the session is always resolved afterwards; the calls made are pinned |
| NotesRepository.CreateNote | frontend_app/src/services/notesRepository.js:99-111 | remote serves the creation exactly when the session resolves to remote and the call succeeds; otherwise the local creation; the session is always resolved afterwards; the calls made are pinned |
| NotesRepository.UpdateNote | frontend_app/src/services/notesRepository.js:114-126 | remote serves the update exactly when the session resolves to remote and the call succeeds; otherwise the local update; the session is always resolved afterwards; the calls made are pinned |
| NotesRepository.DeleteNote | frontend_app/src/services/notesRepository.js:129-141 | always true; remote serves the delete exactly when the session resolves to remote and the call succeeds, leaving local storage untouched; otherwise local storage loses the id; the session is always resolved afterwards; the calls made are pinned |
| NotesRepository.Apply | frontend_app/src/services/notesRepository.js:68-147 | any one operation resolves the mode, moves it only forward, makes no remote call once in stub mode and pings at most once |
| NotesRepository.RunOpsFollows | frontend_app/src/services/notesRepository.js:19 | over any sequence of operations the mode only moves forward |
| NotesRepository.StubIsFinal | frontend_app/src/services/notesRepository.js:72-80 | once in stub mode, a session stays there and never calls the service again |
| NotesRepository.NoPingOnceResolved | frontend_app/src/services/notesRepository.js:34-35 | once the mode is resolved, no later operation pings |
| NotesRepository.PingAtMostOnce | frontend_app/src/services/notesRepository.js:34-49 | a whole session pings the service at most once |
| NotesRepository.CreateWhenUnreachable | frontend_app/src/services/notesRepository.js:99-111 | with an unreachable service, creating {A, B} in a fresh session pings once, falls back to stub and creates the note locally with the fresh id, the creation reading as createdAt and the update reading as updatedAt |
| NotesList.FormatTitle | frontend_app/src/components/NotesList.js:3-6 | the trimmed title, or "Untitled" when the title is blank or the note missing; never empty, never padded |
| NotesList.FormatTitleStable | frontend_app/src/components/NotesList.js:3-6 | a shown title, set as the title, is shown unchanged |
| NotesList.Tidy | frontend_app/src/components/NotesList.js:9 | collapsing and trimming keeps the visible characters in order, with no whitespace other than single spaces and none at the ends; empty exactly for all-whitespace input |
| NotesList.TidyWordThenRest | frontend_app/src/components/NotesList.js:9 | a word followed by any whitespace run and more text becomes the word, one space, and the tidied rest |
| NotesList.TidyWordEnd | frontend_app/src/components/NotesList.js:9 | a last word keeps no whitespace after it |
| NotesList.TidyLeading | frontend_app/src/components/NotesList.js:9 | whitespace before the first word is dropped |
| NotesList.TrimKeepsSpacing | frontend_app/src/components/NotesList.js:9 | trimming a collapsed text keeps its whitespace plain and single |
| NotesList.CutKeepsShape | frontend_app/src/components/NotesList.js:11 | cutting at 60 characters and adding an ellipsis keeps the spacing rules and a prefix of the visible characters |
| NotesList.FormatPreview | frontend_app/src/components/NotesList.js:8-12 | "No content" for blank content; otherwise the tidied text when it has at most 60 characters, else its first 60 followed by an ellipsis; the preview holds all visible characters in order when not cut and a prefix of them when cut |
| NotesList.CountText | frontend_app/src/components/NotesList.js:23 | the count followed by "note", with a plural "s" exactly when the count is not one |
| NotesList.CountTextReadsBack | frontend_app/src/components/NotesList.js:23 | the header's leading digits read back as the number of notes |
| NotesList.RenderSidebar | frontend_app/src/components/NotesList.js:23-59 | loading text while loading, else the count; the empty notice exactly when there are no notes and nothing is loading, reading "0 notes"; one row per note, in order, active exactly when its id is the selection |
| NotesList.AtMostOneActive | frontend_app/src/components/NotesList.js:46 | with distinct ids, at most one row is highlighted |
| NoteViewer.FormatTitle | frontend_app/src/components/NoteViewer.js:3-6 | the viewer's title: trimmed, or "Untitled" when blank |
| NoteViewer.SameTitleAsSidebar | frontend_app/src/components/NoteViewer.js:3-6 | the viewer and the sidebar format every title the same way |
| NoteViewer.Render | frontend_app/src/components/NoteViewer.js:9-42 | the placeholder exactly when no note is selected; otherwise the formatted title, the mode's name ("remote" or "stub") as the badge, and the stored content |
| NoteEditor.InitialFields | frontend_app/src/components/NoteEditor.js:12-18 | the fields start from the note being edited, or empty for a new note |
| NoteEditor.CanSave | frontend_app/src/components/NoteEditor.js:28 | saving is allowed exactly when title or content has a visible character |
| NoteEditor.Submit | frontend_app/src/components/NoteEditor.js:30-34 | nothing is submitted while saving or when nothing can be saved; otherwise the trimmed title, "Untitled" when blank, and the content exactly as typed |
| NoteEditor.SubmittedTitleIsShownTitle | frontend_app/src/components/NoteEditor.js:34 | the submitted title is the one the sidebar would show for the typed title |
| NoteEditor.SaveUntouched | frontend_app/src/components/NoteEditor.js:12-34 | saving a note opened and left untouched submits its shown title and unchanged content |
| NoteEditor.CreatedFromEditor | frontend_app/src/components/NoteEditor.js:30-34 | a note created locally from the editor's payload keeps the submitted title, shows it unchanged and keeps the typed content |
| App.ToggleTheme | frontend_app/src/App.js:27-30 | the theme is always light or dark afterwards, dark exactly when it was light |
| App.ToggleTwice | frontend_app/src/App.js:27-30 | toggling twice returns to the starting theme |
| App.ErrorText | frontend_app/src/App.js:55 | the error shown is the error's message, or the fallback when the message is empty; never empty |
| App.SelectedNote | frontend_app/src/App.js:32-35 | the first note whose id is the selection, none exactly when no note has it |
| App.FirstId | frontend_app/src/App.js:48 | the first listed note's id, or none for an empty list |
| App.KeepOrFirst | frontend_app/src/App.js:47-53 | the selection is kept when asked and it is set and still listed, else the first note is selected; either way it is unset or names a listed note |
| App.RefreshCalls | frontend_app/src/App.js:41-45 | a refresh lists first and asks for the mode only when listing succeeded |
| App.Refresh | frontend_app/src/App.js:37-59 | on success the list, mode and selection are replaced and the error cleared; on failure the error is the message or "Failed to load notes." and notes and selection are kept; loading ends and nothing else changes |
| App.Mount | frontend_app/src/App.js:61-64 | the first load shows the list, selects its first note and ends loading |
| App.OnSelectNote | frontend_app/src/App.js:66-70 | the clicked note is selected and shown, the error cleared; nothing else changes |
| App.OnCreate | frontend_app/src/App.js:72-75 | the editor opens on a new note and the error is cleared; nothing else changes |
| App.OnEdit | frontend_app/src/App.js:77-81 | without a selection nothing changes; with one the editor opens on it and the error is cleared, and nothing else changes |
| App.OnCancelEdit | frontend_app/src/App.js:83-86 | back to viewing with the error cleared; nothing else changes |
| App.OnSave | frontend_app/src/App.js:88-107 | create is called exactly in create mode; update is called exactly in edit mode with a selection, on the selected note; otherwise nothing is called; after a successful create the state is the refreshed state with the new note selected and viewing; after a successful update the editor returns to viewing; failure keeps the editor open with an error and changes nothing else; saving always ends |
| App.OnRequestDelete | frontend_app/src/App.js:109-112 | without a selection nothing changes; with one the confirmation opens and nothing else changes |
| App.OnCancelDelete | frontend_app/src/App.js:114-116 | the confirmation closes and nothing else changes |
| App.OnConfirmDelete | frontend_app/src/App.js:118-129 | without a selection nothing happens; otherwise the dialog closes and the selected note is deleted first; on success the state is the refresh of the closed, cleared, viewing state, so the first listed note is shown; on failure only the dialog and the error change |
| App.HandleSettles | frontend_app/src/App.js:66-129 | every user action keeps edit mode tied to a selection and leaves no save in flight |
| App.RunSettles | frontend_app/src/App.js:66-129 | the same holds after any sequence of actions |
| App.EditSaveAlwaysUpdates | frontend_app/src/App.js:77-101 | after the first load and any actions, saving in edit mode always updates the selected note: no save is silently dropped |
| App.FirstActiveRow | frontend_app/src/App.js:32-35 | the selected note is the note of the first highlighted sidebar row, and no row is highlighted when nothing is selected |
| App.PanelMatchesSidebar | frontend_app/src/App.js:32-35 | the viewer would show a note exactly when a sidebar row is highlighted, under the title of the first such row |

## Left out

- Browser storage (`utils/storage.js`), the id generator (`utils/id.js`) and the clock are not part of this model.
  - They are parameters: the slot value, and a `Draws` record per operation holding the seed id, the new id, the creation reading and the update reading of the clock.
  - The fallback stamps that normalisation gives a record missing a timestamp all use the update reading.
- Storage read errors are swallowed by the source's read helper and give the fallback. A slot that holds a non-array value, or text that does not parse, is treated like an absent one.
- Storage write errors are not modelled. `storageSetJson` does not catch a failing `setItem` (full or disabled storage), so seeding, create, update and delete in the local store would reject, and the application root would show its error. In this model the local store always succeeds.
- A stored array with a `null` entry is not modelled. `normalizeNote` would throw a TypeError reading its fields, so every local operation would reject. A `Slot` holds note records only, so this cannot arise here.
  - A number, string, boolean or array entry does not throw. It has none of the note fields, so it normalises like a record with every field missing: no id, empty title and content, and fresh timestamps. That case is the all-`None` `RawNote`, which is modelled.
- Stored or remote field values that are not strings are not modelled: a numeric id, a boolean title, an object as content. `RawNote` and `Note` hold strings only. `??` would keep such values as they are, and the views would stringify them.
- `fetch`, `JSON.parse` and `encodeURIComponent` are parameters, not modelled. The same goes for the feature-flag constants file (`constants/featureFlags`), which is not part of this model: the flag's name is a parameter.
- Asynchrony is not modelled.
  - Each async function is taken as running to completion before the next starts.
  - Interleavings of concurrent calls, and React's batching of state updates, are not modelled.
- Env.FeatureFlags: a parsed object is taken as a map of booleans. The source tests each value's truthiness with `Boolean(...)`; the parser parameter is expected to have done that conversion.
- NotesStub.SortByUpdatedDesc: the sort is stated as sorted plus a permutation. Stability, and the exact order among equal times, are not stated.
  - `localeCompare` is modelled as code-point order on the text.
  - ISO timestamps of equal length order the same way under both.
- Text.ToLower: only ASCII letters are lower-cased. Lengths count code points, not UTF-16 units.
  - This matters only for the 60-character preview cut on text outside the basic plane.
- `null` and `undefined` are both `None`.
  - Note ids are strings or missing.
  - A selection of `None` highlights no row and selects no note. A remote note whose id is itself null is therefore never matched by a null selection.
- NoteEditor.InitialFields: a note's title and content are always strings here, so the editor's fallback to an empty field for a null title or content cannot arise.
- NotesStub.Without: membership of the result is stated, and filtering distributes over concatenation; the order of the kept notes is not stated by itself.
- App.Refresh: the list loaded into the application holds notes only. Null entries that a remote list may contain after normalisation are not modelled.
- React rendering and markup are not modelled:
  - the layout and confirmation-dialog components;
  - the theme attribute on the document element;
  - the editor's field-by-field typing state;
  - the test file.

=== FILE: app.dfy ===
/** The application root: theme, the loaded notes, the selection, the panel
    mode and the delete dialog, and how each user action changes them. The
    repository's answers are parameters; each asynchronous handler is
    modelled by its final state together with the repository calls it
    makes, in order. */
module App {
  import opened Wrappers
  import opened NoteModel
  import NotesRepository
  import NotesList
  import NoteViewer

  const Light := "light"
  const Dark := "dark"
  const LoadFailedText := "Failed to load notes."
  const SaveFailedText := "Failed to save note."
  const DeleteFailedText := "Failed to delete note."

  /** The main panel's mode: viewing, editing the selected note, or
      writing a new one. */
  datatype PanelMode = Viewing | Editing | Creating

  datatype State = State(
    theme: string,
    notes: seq<Note>,
    selected: Option<string>,
    mode: PanelMode,
    loading: bool,
    saving: bool,
    error: string,
    repositoryMode: NotesRepository.Mode,
    deleteDialogOpen: bool)

  /** The state before the first load. */
  const Initial := State(Light, [], None, Viewing, true, false, "", NotesRepository.Stub, false)

  /** A repository call the application makes. */
  datatype Effect =
    | CallList
    | CallMode
    | CallCreate(payload: Payload)
    | CallUpdate(id: string, payload: Payload)
    | CallDelete(id: string)

  /** What the repository answered to a refresh: the list and then the
      mode, or the message of the error listing raised. */
  datatype Loaded = Loaded(list: seq<Note>, mode: NotesRepository.Mode) | LoadFailed(message: string)

  datatype Transition = Transition(state: State, effects: seq<Effect>)

  /** `toggleTheme`: light becomes dark, anything else becomes light. */
  function ToggleTheme(theme: string): (r: string)
    ensures r == Light || r == Dark
    ensures r == Dark <==> theme == Light
  {
    if theme == Light then Dark else Light
  }

  /** Toggling twice from either theme comes back to it. */
  lemma ToggleTwice(theme: string)
    requires theme == Light || theme == Dark
    ensures ToggleTheme(ToggleTheme(theme)) == theme
  {
  }

  /** A selection counts only when it is set and non-empty. */
  predicate Truthy(selected: Option<string>) {
    selected.Some? && selected.value != []
  }

  /** `e?.message || fallback`. */
  function ErrorText(message: string, fallback: string): (r: string)
    requires fallback != []
    ensures r != []
    ensures message != [] ==> r == message
  {
    if message == [] then fallback else message
  }

  /** `selectedNote`: the first note whose id is the selection, if any. */
  function SelectedNote(notes: seq<Note>, selected: Option<string>): (r: Option<Note>)
    ensures selected.None? ==> r.None?
    ensures selected.Some? ==>
      && (r.None? <==> forall k :: 0 <= k < |notes| ==> !HasId(notes[k], selected.value))
      && (r.Some? ==> exists k :: 0 <= k < |notes| && notes[k] == r.value && HasId(notes[k], selected.value)
                                && forall j :: 0 <= j < k ==> !HasId(notes[j], selected.value))
  {
    if selected.None? then None
    else
      match IndexOf(notes, selected.value)
      case None => None
      case Some(k) => Some(notes[k])
  }

  /** `list[0]?.id ?? null`. */
  function FirstId(list: seq<Note>): (r: Option<string>)
    ensures list == [] ==> r.None?
    ensures list != [] ==> r == list[0].id
  {
    if list == [] then None else list[0].id
  }

  /** The selection after a refresh: kept when asked to and it still names a
      listed note, otherwise the first note's id. Either way it is unset or
      names a listed note. */
  function KeepOrFirst(list: seq<Note>, selected: Option<string>, preserve: bool): (r: Option<string>)
    ensures r.Some? ==> exists k :: 0 <= k < |list| && list[k].id == r
    ensures preserve && Truthy(selected) && (exists k :: 0 <= k < |list| && HasId(list[k], selected.value)) ==>
      r == selected
    ensures !(preserve && Truthy(selected) && (exists k :: 0 <= k < |list| && HasId(list[k], selected.value))) ==>
      r == FirstId(list)
  {
    if preserve && Truthy(selected) && IndexOf(list, selected.value).Some? then selected
    else FirstId(list)
  }

  /** The repository calls a refresh makes: the mode is asked for only
      after the list arrived. */
  function RefreshCalls(loaded: Loaded): (r: seq<Effect>)
    ensures |r| >= 1 && r[0] == CallList
    ensures CallMode in r <==> loaded.Loaded?
    ensures forall e :: e in r ==> e == CallList || e == CallMode
  {
    if loaded.Loaded? then [CallList, CallMode] else [CallList]
  }

  /** `refreshNotes`: on success the list, the mode and the selection are
      replaced and the error is cleared; on failure the error is shown and
      the notes and selection are kept. Loading ends either way, and the
      theme, panel mode, saving flag and dialog are untouched. */
  function Refresh(st: State, loaded: Loaded, preserve: bool): (r: State)
    ensures !r.loading
    ensures r.theme == st.theme && r.mode == st.mode && r.saving == st.saving
    ensures r.deleteDialogOpen == st.deleteDialogOpen
    ensures loaded.LoadFailed? ==>
      r.notes == st.notes && r.selected == st.selected && r.repositoryMode == st.repositoryMode && r.error != []
    ensures loaded.LoadFailed? ==> r.error == ErrorText(loaded.message, LoadFailedText)
    ensures r.(notes := st.notes, repositoryMode := st.repositoryMode, selected := st.selected,
               loading := st.loading, error := st.error) == st
    ensures loaded.Loaded? ==>
      && r.notes == loaded.list && r.repositoryMode == loaded.mode && r.error == []
      && r.selected == KeepOrFirst(loaded.list, st.selected, preserve)
  {
    match loaded
    case LoadFailed(message) =>
      st.(loading := false, error := ErrorText(message, LoadFailedText))
    case Loaded(list, mode) =>
      st.(notes := list, repositoryMode := mode, selected := KeepOrFirst(list, st.selected, preserve),
          loading := false, error := "")
  }

  /** The first load, which does not keep any selection. */
  function Mount(loaded: Loaded): (t: Transition)
    ensures t.effects == RefreshCalls(loaded)
    ensures !t.state.loading && t.state.mode == Viewing && t.state.theme == Light
    ensures loaded.Loaded? ==> t.state.notes == loaded.list && t.state.selected == FirstId(loaded.list)
    ensures loaded.LoadFailed? ==> t.state.notes == [] && t.state.selected.None? && t.state.error != []
  {
    Transition(Refresh(Initial, loaded, false), RefreshCalls(loaded))
  }

  /** `onSelectNote`: select the note and show it. */
  function OnSelectNote(st: State, id: string): (r: State)
    ensures r.selected == Some(id) && r.mode == Viewing && r.error == []
    ensures r.notes == st.notes && r.deleteDialogOpen == st.deleteDialogOpen && r.saving == st.saving
    ensures r.(selected := st.selected, mode := st.mode, error := st.error) == st
  {
    st.(selected := Some(id), mode := Viewing, error := "")
  }

  /** `onCreate`: open the editor on a new note. */
  function OnCreate(st: State): (r: State)
    ensures r.mode == Creating && r.error == []
    ensures r.selected == st.selected && r.notes == st.notes && r.saving == st.saving
    ensures r.(mode := st.mode, error := st.error) == st
  {
    st.(mode := Creating, error := "")
  }

  /** `onEdit`: open the editor on the selected note; nothing happens
      without a selection. */
  function OnEdit(st: State): (r: State)
    ensures !Truthy(st.selected) ==> r == st
    ensures Truthy(st.selected) ==> r.mode == Editing && r.error == [] && r.selected == st.selected
    ensures r.notes == st.notes && r.saving == st.saving
    ensures r.(mode := st.mode, error := st.error) == st
  {
    if !Truthy(st.selected) then st else st.(mode := Editing, error := "")
  }

  /** `onCancelEdit`: back to viewing, nothing saved. */
  function OnCancelEdit(st: State): (r: State)
    ensures r.mode == Viewing && r.error == []
    ensures r.notes == st.notes && r.selected == st.selected && r.saving == st.saving
    ensures r.(mode := st.mode, error := st.error) == st
  {
    st.(mode := Viewing, error := "")
  }

  /** `onSave`, given what the create or update call answered and what the
      following refresh loaded. A new note is created only in create mode;
      a note is updated only in edit mode with a selection, and it is the
      selected note; in any other mode nothing is called. After a
      successful save the panel shows the note and, for a new note, the new
      note is selected; after a failed one the editor stays open with the
      error. Saving has ended in every case. */
  function OnSave(st: State, payload: Payload, saved: Result<Option<Note>, string>, loaded: Loaded): (t: Transition)
    ensures !t.state.saving
    ensures CallCreate(payload) in t.effects <==> st.mode == Creating
    ensures (exists e :: e in t.effects && e.CallUpdate?) <==> st.mode == Editing && Truthy(st.selected)
    ensures forall e :: e in t.effects && e.CallUpdate? ==> e == CallUpdate(st.selected.value, payload)
    ensures st.mode == Viewing || (st.mode == Editing && !Truthy(st.selected)) ==>
      t == Transition(st.(saving := false, error := ""), [])
    ensures st.mode == Creating && saved.Success? ==>
      && t.state.mode == Viewing
      && t.state.selected == (if saved.value.Some? then saved.value.value.id else None)
      && t.effects == [CallCreate(payload)] + RefreshCalls(loaded)
      && t.state == Refresh(st.(saving := false, error := ""), loaded, true)
                      .(selected := if saved.value.Some? then saved.value.value.id else None, mode := Viewing)
    ensures st.mode == Editing && Truthy(st.selected) && saved.Success? ==>
      && t.state.mode == Viewing
      && t.state == Refresh(st.(saving := false, error := ""), loaded, true).(mode := Viewing)
      && t.effects == [CallUpdate(st.selected.value, payload)] + RefreshCalls(loaded)
    ensures (st.mode == Creating || (st.mode == Editing && Truthy(st.selected))) && saved.Failure? ==>
      t.state.mode == st.mode && t.state.notes == st.notes && t.state.error != [] && |t.effects| == 1
      && t.state == st.(saving := false, error := t.state.error)
  {
    var busy := st.(saving := true, error := "");
    if st.mode == Creating then
      var call := CallCreate(payload);
      match saved
      case Failure(message) =>
        Transition(busy.(error := ErrorText(message, SaveFailedText), saving := false), [call])
      case Success(created) =>
        var refreshed := Refresh(busy, loaded, true);
        var id := if created.Some? then created.value.id else None;
        Transition(refreshed.(selected := id, mode := Viewing, saving := false), [call] + RefreshCalls(loaded))
    else if st.mode == Editing && Truthy(st.selected) then
      var call := CallUpdate(st.selected.value, payload);
      match saved
      case Failure(message) =>
        assert call in [call];
        Transition(busy.(error := ErrorText(message, SaveFailedText), saving := false), [call])
      case Success(_) =>
        var refreshed := Refresh(busy, loaded, true);
        var effects := [call] + RefreshCalls(loaded);
        assert effects[0] == call;
        Transition(refreshed.(mode := Viewing, saving := false), effects)
    else
      Transition(busy.(saving := false), [])
  }

  /** `onRequestDelete`: open the confirmation only with a selection. */
  function OnRequestDelete(st: State): (r: State)
    ensures r.deleteDialogOpen <==> st.deleteDialogOpen || Truthy(st.selected)
    ensures r.selected == st.selected && r.mode == st.mode && r.notes == st.notes && r.saving == st.saving
    ensures !Truthy(st.selected) ==> r == st
    ensures r.(deleteDialogOpen := st.deleteDialogOpen) == st
  {
    if !Truthy(st.selected) then st else st.(deleteDialogOpen := true)
  }

  /** `onCancelDelete`: close the confirmation, nothing deleted. */
  function OnCancelDelete(st: State): (r: State)
    ensures !r.deleteDialogOpen
    ensures r.selected == st.selected && r.mode == st.mode && r.notes == st.notes && r.saving == st.saving
    ensures r.(deleteDialogOpen := st.deleteDialogOpen) == st
  {
    st.(deleteDialogOpen := false)
  }

  /** `onConfirmDelete`, given what the delete call answered and what the
      following refresh loaded. Without a selection nothing happens.
      Otherwise the dialog closes and the selected note is deleted; on
      success the panel shows the first listed note, on failure the error
      is shown and the rest is kept. */
  function OnConfirmDelete(st: State, deleted: Result<bool, string>, loaded: Loaded): (t: Transition)
    ensures !Truthy(st.selected) ==> t == Transition(st, [])
    ensures Truthy(st.selected) ==>
      && !t.state.deleteDialogOpen
      && |t.effects| >= 1 && t.effects[0] == CallDelete(st.selected.value)
      && t.state.saving == st.saving
    ensures Truthy(st.selected) && deleted.Success? ==>
      && t.state.mode == Viewing
      && t.effects == [CallDelete(st.selected.value)] + RefreshCalls(loaded)
      && (loaded.Loaded? ==> t.state.notes == loaded.list && t.state.selected == FirstId(loaded.list))
      && t.state == Refresh(st.(deleteDialogOpen := false, error := "", mode := Viewing), loaded, false)
    ensures Truthy(st.selected) && deleted.Failure? ==>
      && t.effects == [CallDelete(st.selected.value)]
      && t.state.error != [] && t.state.mode == st.mode && t.state.selected == st.selected
      && t.state == st.(deleteDialogOpen := false, error := t.state.error)
  {
    if !Truthy(st.selected) then Transition(st, [])
    else
      var call := CallDelete(st.selected.value);
      var closed := st.(deleteDialogOpen := false, error := "");
      match deleted
      case Failure(message) =>
        Transition(closed.(error := ErrorText(message, DeleteFailedText)), [call])
      case Success(_) =>
        Transition(Refresh(closed.(mode := Viewing), loaded, false), [call] + RefreshCalls(loaded))
  }

  /** A user action, with the repository's answers to the calls it makes. */
  datatype Event =
    | ToggleThemeClicked
    | NoteClicked(id: string)
    | NewClicked
    | EditClicked
    | CancelEditClicked
    | SaveSubmitted(payload: Payload, saved: Result<Option<Note>, string>, loaded: Loaded)
    | DeleteClicked
    | DeleteCancelled
    | DeleteConfirmed(deleted: Result<bool, string>, loaded: Loaded)

  function Handle(st: State, ev: Event): Transition {
    match ev
    case ToggleThemeClicked => Transition(st.(theme := ToggleTheme(st.theme)), [])
    case NoteClicked(id) => Transition(OnSelectNote(st, id), [])
    case NewClicked => Transition(OnCreate(st), [])
    case EditClicked => Transition(OnEdit(st), [])
    case CancelEditClicked => Transition(OnCancelEdit(st), [])
    case SaveSubmitted(payload, saved, loaded) => OnSave(st, payload, saved, loaded)
    case DeleteClicked => Transition(OnRequestDelete(st), [])
    case DeleteCancelled => Transition(OnCancelDelete(st), [])
    case DeleteConfirmed(deleted, loaded) => OnConfirmDelete(st, deleted, loaded)
  }

  /** The state after a sequence of actions. */
  function Run(st: State, events: seq<Event>): State
    decreases |events|
  {
    if events == [] then st else Run(Handle(st, events[0]).state, events[1..])
  }

  /** What holds between actions: the editor in edit mode always has a
      selected note to update, and no save is in flight. */
  predicate Settled(st: State) {
    (st.mode == Editing ==> Truthy(st.selected)) && !st.saving
  }

  /** Every action keeps the application settled. */
  lemma HandleSettles(st: State, ev: Event)
    requires Settled(st)
    ensures Settled(Handle(st, ev).state)
  {
    match ev
    case SaveSubmitted(payload, saved, loaded) =>
      var t := OnSave(st, payload, saved, loaded);
      assert st.mode == Editing ==> Truthy(st.selected);
    case DeleteConfirmed(deleted, loaded) =>
      var t := OnConfirmDelete(st, deleted, loaded);
    case _ =>
  }

  lemma {:induction false} RunSettles(st: State, events: seq<Event>)
    requires Settled(st)
    ensures Settled(Run(st, events))
    decreases |events|
  {
    if events != [] {
      HandleSettles(st, events[0]);
      RunSettles(Handle(st, events[0]).state, events[1..]);
    }
  }

  /** After the first load and any actions, saving in edit mode always
      reaches the repository as an update of the selected note: a save is
      never silently dropped. */
  lemma EditSaveAlwaysUpdates(loaded: Loaded, events: seq<Event>, payload: Payload,
                              saved: Result<Option<Note>, string>, after: Loaded)
    requires Run(Mount(loaded).state, events).mode == Editing
    ensures var st := Run(Mount(loaded).state, events);
      Truthy(st.selected) && OnSave(st, payload, saved, after).effects[0] == CallUpdate(st.selected.value, payload)
  {
    RunSettles(Mount(loaded).state, events);
  }

  /** The first highlighted row is the selected note's row. */
  lemma FirstActiveRow(notes: seq<Note>, selected: Option<string>, loading: bool)
    ensures var rows := NotesList.RenderSidebar(notes, selected, loading).rows;
      match SelectedNote(notes, selected)
      case None => forall i :: 0 <= i < |rows| ==> !rows[i].active
      case Some(n) => exists k :: 0 <= k < |rows| && rows[k].active && rows[k].title == NotesList.FormatTitle(Some(n))
                                  && forall j :: 0 <= j < k ==> !rows[j].active
  {
    if selected.None? {
      NoActiveRow(notes, selected, loading);
    } else {
      match IndexOf(notes, selected.value)
      case None =>
        NoActiveRow(notes, selected, loading);
      case Some(k) =>
        ActiveRowAt(notes, selected.value, k, loading);
    }
  }

  /** With no note holding the selection, no row is highlighted. */
  lemma NoActiveRow(notes: seq<Note>, selected: Option<string>, loading: bool)
    requires selected.Some? ==> IndexOf(notes, selected.value).None?
    ensures var rows := NotesList.RenderSidebar(notes, selected, loading).rows;
      forall i :: 0 <= i < |rows| ==> !rows[i].active
  {
  }

  /** The first note holding the selection has the first highlighted row. */
  lemma ActiveRowAt(notes: seq<Note>, id: string, k: nat, loading: bool)
    requires IndexOf(notes, id) == Some(k)
    ensures var rows := NotesList.RenderSidebar(notes, Some(id), loading).rows;
      && k < |rows| && rows[k].active && rows[k].title == NotesList.FormatTitle(Some(notes[k]))
      && forall j :: 0 <= j < k ==> !rows[j].active
  {
  }

  /** The panel shows a note exactly when a sidebar row is highlighted, and
      then under the title of the first highlighted row. */
  lemma PanelMatchesSidebar(st: State)
    ensures var panel := NoteViewer.Render(SelectedNote(st.notes, st.selected), st.repositoryMode);
      var rows := NotesList.RenderSidebar(st.notes, st.selected, st.loading).rows;
      && (panel.Shown? <==> exists i :: 0 <= i < |rows| && rows[i].active)
      && (panel.Shown? ==> exists i :: 0 <= i < |rows| && rows[i].active && rows[i].title == panel.title
                                       && forall j :: 0 <= j < i ==> !rows[j].active)
  {
    FirstActiveRow(st.notes, st.selected, st.loading);
  }
}

=== FILE: env.dfy ===
/** Reading the build-time environment: trimmed lookups with a fallback,
    the API base URL, the feature flags and the experiments switch. */
module Env {
  import opened Wrappers
  import opened Text

  /** `process.env`: the variables that are set, with their values. */
  type Environment = map<string, string>

  /** Feature flags: each flag name with the truthiness of its value. */
  type Flags = map<string, bool>

  const ApiBaseVar := "REACT_APP_API_BASE"
  const BackendUrlVar := "REACT_APP_BACKEND_URL"
  const FeatureFlagsVar := "REACT_APP_FEATURE_FLAGS"
  const ExperimentsVar := "REACT_APP_EXPERIMENTS_ENABLED"

  /** The words `isExperimentsEnabled` reads as "on", after lower-casing. */
  const TruthyWords: set<string> := {"1", "true", "yes", "on"}

  /** The variable is set to something other than whitespace. */
  predicate Configured(env: Environment, key: string) {
    key in env && !AllSpace(env[key])
  }

  /** `getEnv(key, fallback)`: the trimmed value of a variable, or the
      fallback when it is unset or blank. A value other than the fallback is
      non-empty and has no whitespace at either end. */
  function GetEnv(env: Environment, key: string, fallback: Option<string>): (r: Option<string>)
    ensures !Configured(env, key) ==> r == fallback
    ensures Configured(env, key) ==> r == Some(Trim(env[key]))
    ensures r != fallback ==> r.Some? && r.value != [] && !IsSpace(r.value[0]) && !IsSpace(r.value[|r.value| - 1])
  {
    if key !in env then fallback
    else
      var trimmed := Trim(env[key]);
      if |trimmed| > 0 then Some(trimmed) else fallback
  }

  /** JavaScript `a || b` on a possibly missing string: `b` when `a` is
      missing or empty. */
  function OrElse(a: Option<string>, b: string): string {
    if a.Some? && a.value != [] then a.value else b
  }

  /** `getApiBaseUrl`: `REACT_APP_API_BASE` when it is set to something,
      else `REACT_APP_BACKEND_URL`, else the empty string. */
  function ApiBaseUrl(env: Environment): (r: string)
    ensures Configured(env, ApiBaseVar) ==> r == Trim(env[ApiBaseVar])
    ensures !Configured(env, ApiBaseVar) && Configured(env, BackendUrlVar) ==> r == Trim(env[BackendUrlVar])
    ensures r == [] <==> !Configured(env, ApiBaseVar) && !Configured(env, BackendUrlVar)
  {
    OrElse(GetEnv(env, ApiBaseVar, None), OrElse(GetEnv(env, BackendUrlVar, None), ""))
  }

  /** The comma-separated branch of `getFeatureFlags`: every non-blank
      trimmed segment becomes a flag set to true, folding left to right. The
      flag names are exactly the non-empty trimmed segments. */
  function FlagsFromSegments(segments: seq<string>): (flags: Flags)
    ensures flags.Keys == set p | p in segments && Trim(p) != [] :: Trim(p)
    ensures forall k :: k in flags ==> flags[k]
  {
    if segments == [] then map[]
    else
      var init := segments[..|segments| - 1];
      var last := segments[|segments| - 1];
      var acc := FlagsFromSegments(init);
      assert segments == init + [last];
      var k := Trim(last);
      if k == [] then acc else acc[k := true]
  }

  /** `getFeatureFlags`. `parseObject` stands for `JSON.parse` followed by
      the object test: `Some(flags)` when the text parses to a non-null
      object, `None` when parsing throws or yields anything else. */
  function FeatureFlags(env: Environment, parseObject: string -> Option<Flags>): (flags: Flags)
    ensures !Configured(env, FeatureFlagsVar) ==> flags == map[]
    ensures Configured(env, FeatureFlagsVar) && parseObject(Trim(env[FeatureFlagsVar])).Some? ==>
      flags == parseObject(Trim(env[FeatureFlagsVar])).value
    ensures Configured(env, FeatureFlagsVar) && parseObject(Trim(env[FeatureFlagsVar])).None? ==>
      flags.Keys == (set p | p in Split(Trim(env[FeatureFlagsVar]), ',') && Trim(p) != [] :: Trim(p))
      && forall k :: k in flags ==> flags[k]
  {
    var raw := GetEnv(env, FeatureFlagsVar, Some("")).GetOr("");
    if raw == [] then map[]
    else
      match parseObject(raw)
      case Some(obj) => obj
      case None => FlagsFromSegments(Split(raw, ','))
  }

  /** `isExperimentsEnabled`: the variable, trimmed and lower-cased, is one
      of the truthy words; an unset or blank variable reads as off. */
  function ExperimentsEnabled(env: Environment): (on: bool)
    ensures on ==> Configured(env, ExperimentsVar)
    ensures Configured(env, ExperimentsVar) ==> (on <==> ToLower(Trim(env[ExperimentsVar])) in TruthyWords)
  {
    ToLower(GetEnv(env, ExperimentsVar, Some("")).GetOr("")) in TruthyWords
  }

  /** Whitespace around the value does not matter to the switch. */
  lemma ExperimentsIgnoreSpace(before: string, v: string, after: string)
    requires AllSpace(before) && AllSpace(after)
    ensures ExperimentsEnabled(map[ExperimentsVar := before + v + after]) == ExperimentsEnabled(map[ExperimentsVar := v])
  {
    var padded := before + v + after;
    TrimPadded(before, v, after);
    var e1 := map[ExperimentsVar := padded];
    var e2 := map[ExperimentsVar := v];
    assert e1[ExperimentsVar] == padded && e2[ExperimentsVar] == v;
    assert GetEnv(e1, ExperimentsVar, Some("")) == GetEnv(e2, ExperimentsVar, Some(""));
  }

  /** Nor does the case of its letters. */
  lemma ExperimentsIgnoreCase(v: string)
    ensures ExperimentsEnabled(map[ExperimentsVar := v]) == ExperimentsEnabled(map[ExperimentsVar := ToLower(v)])
  {
    TrimLower(v);
    ToLowerIdempotent(Trim(v));
  }

  /** Upper case and surrounding whitespace do not matter to the switch. */
  lemma ExperimentsCaseAndSpace()
    ensures ExperimentsEnabled(map[ExperimentsVar := " Yes\n"])
  {
    var y := " Yes\n";
    assert LeadingSpaces(y) == 1;
    assert TrailingSpaces(y[..4]) == 0;
    assert TrailingSpaces(y) == 1;
    assert Trim(y) == "Yes";
    assert ToLower("Yes") == "yes";
  }
}

=== FILE: note_editor.dfy ===
/** The editor panel: the fields it starts from, when saving is allowed, and
    the payload it hands to the application on submit. */
module NoteEditor {
  import opened Wrappers
  import opened Text
  import opened NoteModel
  import NotesList
  import opened NotesStub

  datatype Fields = Fields(title: string, content: string)

  /** The fields start from the note being edited, or empty for a new one. */
  function InitialFields(initialNote: Option<Note>): (f: Fields)
    ensures initialNote.None? ==> f.title == [] && f.content == []
    ensures initialNote.Some? ==> f.title == initialNote.value.title && f.content == initialNote.value.content
  {
    match initialNote
    case None => Fields("", "")
    case Some(n) => Fields(n.title, n.content)
  }

  /** `canSave`: something visible in the title or in the content. */
  function CanSave(f: Fields): (b: bool)
    ensures b <==> !AllSpace(f.title) || !AllSpace(f.content)
  {
    |Trim(f.title)| > 0 || |Trim(f.content)| > 0
  }

  /** `submit`: nothing while saving or when nothing can be saved; otherwise
      the trimmed title, "Untitled" when blank, and the content exactly as
      typed. */
  function Submit(f: Fields, saving: bool): (r: Option<Payload>)
    ensures r.Some? <==> CanSave(f) && !saving
    ensures r.Some? ==> r.value.title.Some? && r.value.content == Some(f.content)
    ensures r.Some? && AllSpace(f.title) ==> r.value.title == Some(Untitled)
    ensures r.Some? && !AllSpace(f.title) ==> r.value.title == Some(Trim(f.title))
  {
    if !CanSave(f) || saving then None
    else
      var t := Trim(f.title);
      Some(Payload(Some(if |t| > 0 then t else Untitled), Some(f.content)))
  }

  /** The submitted title is the title the sidebar shows for a note with
      the typed title. */
  lemma SubmittedTitleIsShownTitle(f: Fields, n: Note)
    requires Submit(f, false).Some?
    ensures Submit(f, false).value.title == Some(NotesList.FormatTitle(Some(n.(title := f.title))))
  {
  }

  /** Opening a note in the editor and saving it untouched submits the
      title the sidebar shows for it and its content unchanged. */
  lemma SaveUntouched(n: Note)
    requires !AllSpace(n.title) || !AllSpace(n.content)
    ensures Submit(InitialFields(Some(n)), false) == Some(Payload(Some(NotesList.FormatTitle(Some(n))), Some(n.content)))
  {
  }

  /** A note created in local storage from the editor's payload keeps the
      submitted title, shows it in the sidebar unchanged, and keeps the
      content as typed. */
  lemma CreatedFromEditor(slot: Slot, d: Draws, f: Fields)
    requires Submit(f, false).Some?
    ensures var c := StubCreate(slot, d, Submit(f, false).value).value;
      && c.title == NotesList.FormatTitle(Some(c))
      && c.title == NotesList.FormatTitle(Some(c.(title := f.title)))
      && c.content == f.content
  {
    var p := Submit(f, false).value;
    var t := p.title.value;
    assert t == NotesList.FormatTitle(Some(Note(None, f.title, "", None, None)));
    TrimFixed(t);
    var c := StubCreate(slot, d, p).value;
    assert c.title == t;
  }
}

=== FILE: note_model.dfy ===
/** The note entity in the two shapes the application handles: the record
    as stored or received, where any field may be missing, and the
    canonical five-field note handed to callers. */
module NoteModel {
  import opened Wrappers

  /** A note record before normalisation. `None` is a missing field (null
      or undefined); field values are modelled as strings. */
  datatype RawNote = RawNote(
    id: Option<string>,
    title: Option<string>,
    content: Option<string>,
    createdAt: Option<string>,
    updatedAt: Option<string>)

  /** The canonical note: `title` and `content` are always present, `id`
      and the ISO-8601 timestamps are carried over as found. */
  datatype Note = Note(
    id: Option<string>,
    title: string,
    content: string,
    createdAt: Option<string>,
    updatedAt: Option<string>)

  /** The fields a create or update request carries, each possibly absent.
      A null payload behaves as one with neither field. */
  datatype Payload = Payload(title: Option<string>, content: Option<string>)

  /** The record a canonical note is serialised as. */
  function ToRaw(n: Note): RawNote {
    RawNote(n.id, Some(n.title), Some(n.content), n.createdAt, n.updatedAt)
  }

  /** `n.id === id` for a string `id`. */
  predicate HasId(n: Note, id: string) {
    n.id == Some(id)
  }

  /** The title shown, and given to a created note, in place of a missing or blank one. */
  const Untitled := "Untitled"

  /** The index of the first note with the id: `findIndex((n) => n.id === id)`. */
  function IndexOf(ns: seq<Note>, id: string): (k: Option<nat>)
    ensures k.Some? ==> k.value < |ns| && HasId(ns[k.value], id)
    ensures k.Some? ==> forall j :: 0 <= j < k.value ==> !HasId(ns[j], id)
    ensures k.None? <==> forall j :: 0 <= j < |ns| ==> !HasId(ns[j], id)
  {
    if ns == [] then None
    else if HasId(ns[0], id) then Some(0)
    else
      match IndexOf(ns[1..], id)
      case None => None
      case Some(k) => Some(k + 1)
  }

  /** The first note with the id sits at the index `IndexOf` reports. */
  lemma {:induction false} IndexOfFirst(ns: seq<Note>, id: string, k: nat)
    requires k < |ns| && HasId(ns[k], id)
    requires forall j :: 0 <= j < k ==> !HasId(ns[j], id)
    ensures IndexOf(ns, id) == Some(k)
  {
    if k > 0 {
      IndexOfFirst(ns[1..], id, k - 1);
    }
  }

  /** Both timestamps are present, as for every note the local store hands out. */
  predicate Stamped(n: Note) {
    n.createdAt.Some? && n.updatedAt.Some?
  }
}

=== FILE: note_viewer.dfy ===
/** The main panel in view mode: a placeholder without a note, otherwise the
    note's title, the repository mode badge and the note's content. */
module NoteViewer {
  import opened Wrappers
  import opened Text
  import opened NoteModel
  import NotesList
  import opened NotesRepository

  /** The viewer's own `formatTitle`: the trimmed title, or "Untitled" when
      it is blank. */
  function FormatTitle(note: Option<Note>): (r: string)
    ensures r != []
    ensures AllSpace(NotesList.TitleText(note)) ==> r == Untitled
    ensures !AllSpace(NotesList.TitleText(note)) ==> r == Trim(NotesList.TitleText(note))
  {
    var t := Trim(if note.Some? then note.value.title else "");
    if |t| > 0 then t else Untitled
  }

  /** The viewer and the sidebar show the same title for every note. */
  lemma SameTitleAsSidebar(note: Option<Note>)
    ensures FormatTitle(note) == NotesList.FormatTitle(note)
  {
  }

  datatype Panel =
    | Placeholder
    | Shown(title: string, badge: string, content: string)

  /** `NoteViewer`: the placeholder exactly when there is no note; otherwise
      the formatted title, the mode's name and the content as stored. */
  function Render(note: Option<Note>, mode: Mode): (p: Panel)
    ensures p.Placeholder? <==> note.None?
    ensures p.Shown? ==>
      && p.title == NotesList.FormatTitle(note) && p.title != []
      && p.badge == ModeName(mode) && (p.badge == "remote" <==> mode.Remote?)
      && p.content == note.value.content
  {
    SameTitleAsSidebar(note);
    match note
    case None => Placeholder
    case Some(n) => Shown(FormatTitle(note), ModeName(mode), n.content)
  }
}

=== FILE: notes_api.dfy ===
/** The REST client for the notes service: base-URL normalisation, URL
    construction, the method and path of each call, and the classification
    of a response into a result or an error. `fetch` is not modelled: the
    network's answer to a request is a parameter. */
module NotesApi {
  import opened Wrappers
  import opened Text
  import opened NoteModel

  datatype Method = GET | POST | PUT | DELETE

  /** A JSON value, as far as the client and the repository look into it. */
  datatype Json =
    | Falsy                                          // null, undefined, false, 0 or ""
    | Scalar                                         // any other value that is not an object
    | Arr(elems: seq<Json>)                          // an array
    | Obj(fields: RawNote, items: Option<seq<Json>>) // an object: its note fields, and its `items` member when that is an array
    | Wrapped(data: string)                          // the object `{data: text}` built for a body that is not JSON

  /** The request handed to `fetch`. Every request carries the header
      `Content-Type: application/json`, so headers are left implicit. */
  datatype Request = Request(verb: Method, url: string, body: Option<Payload>)

  /** What `fetch` resolves to: status, reason phrase, `content-type`
      header, and the outcome of reading the body as text and as JSON
      (`None` where reading or parsing throws). */
  datatype Response = Response(
    status: nat,
    statusText: string,
    contentType: Option<string>,
    text: Option<string>,
    json: Option<Json>)

  /** The network's answer: a response, or a rejected `fetch` (unreachable
      host, CORS, DNS). */
  datatype Transport = Delivered(response: Response) | Unreachable

  datatype ApiError =
    | NoBaseUrl                                      // the error with code NO_BASE_URL
    | HttpError(status: nat, url: string, message: string)
    | NetworkError                                   // `fetch` rejected
    | BodyError                                      // reading or parsing the body threw

  /** The exported calls of the client. */
  datatype Call =
    | Ping
    | ListCall
    | GetCall(id: string)
    | CreateCall(payload: Payload)
    | UpdateCall(id: string, payload: Payload)
    | DeleteCall(id: string)

  datatype Route = Route(verb: Method, path: string, body: Option<Payload>)

  /** The request issued, if any, and what the call resolves or rejects with. */
  datatype Exchange = Exchange(sent: Option<Request>, result: Result<Json, ApiError>)

  const NotesPath := "/notes"
  const JsonType := "application/json"

  /** `normalizeBase`: a missing base becomes empty, and every trailing
      slash is removed. */
  function NormalizeBase(base: Option<string>): (r: string)
    ensures base.None? ==> r == []
    ensures base.Some? ==> |r| <= |base.value| && r == base.value[..|r|]
    ensures base.Some? ==> forall k :: |r| <= k < |base.value| ==> base.value[k] == '/'
    ensures r == [] || r[|r| - 1] != '/'
  {
    match base
    case None => []
    case Some(b) => StripTrailing(b, '/')
  }

  lemma NormalizeBaseIdempotent(base: Option<string>)
    ensures NormalizeBase(Some(NormalizeBase(base))) == NormalizeBase(base)
  {
    if base.Some? {
      StripTrailingIdempotent(base.value, '/');
    }
  }

  /** The URL of a request: the base, then the path, with one `/` put in
      between when the path does not begin with one. */
  function JoinUrl(base: string, path: string): (url: string)
    ensures |url| > |base| && url[..|base|] == base && url[|base|] == '/'
    ensures |path| <= |url| - |base| <= |path| + 1 && url[|url| - |path|..] == path
    ensures |url| == |base| + |path| <==> path != [] && path[0] == '/'
  {
    if StartsWith(path, "/") then base + path else base + "/" + path
  }

  /** The method, path and body of each exported call; `encode` stands for
      `encodeURIComponent`. Only create and update send a body, only the
      reading calls use GET, and only the calls naming a note address
      `/notes/{id}`. */
  function RouteOf(call: Call, encode: string -> string): (r: Route)
    ensures r.body.Some? <==> call.CreateCall? || call.UpdateCall?
    ensures r.verb == GET <==> call.Ping? || call.ListCall? || call.GetCall?
    ensures r.verb == POST <==> call.CreateCall?
    ensures r.verb == PUT <==> call.UpdateCall?
    ensures r.verb == DELETE <==> call.DeleteCall?
    ensures r.path == NotesPath <==> call.Ping? || call.ListCall? || call.CreateCall?
    ensures call.GetCall? || call.UpdateCall? || call.DeleteCall? ==> r.path == NotesPath + "/" + encode(call.id)
  {
    match call
    case Ping => Route(GET, NotesPath, None)
    case ListCall => Route(GET, NotesPath, None)
    case GetCall(id) => Route(GET, NotesPath + "/" + encode(id), None)
    case CreateCall(p) => Route(POST, NotesPath, Some(p))
    case UpdateCall(id, p) => Route(PUT, NotesPath + "/" + encode(id), Some(p))
    case DeleteCall(id) => Route(DELETE, NotesPath + "/" + encode(id), None)
  }

  /** `res.ok`. */
  predicate Ok(status: nat) {
    200 <= status <= 299
  }

  /** The message of the error raised for a status outside 2xx. */
  function FailureMessage(res: Response): string {
    var details := res.text.GetOr("");
    "Request failed (" + Decimal(res.status) + ") " + res.statusText
      + (if details != [] then ": " + details else "")
  }

  /** How `requestJson` turns the network's answer into a result: a status
      outside 2xx is an error carrying the status and the URL; then 204 is
      null; then a body whose content type does not mention JSON is wrapped
      as `{data: text}`, or null when empty; otherwise the parsed JSON. */
  function Classify(url: string, answer: Transport): (r: Result<Json, ApiError>)
    ensures answer.Unreachable? ==> r == Failure(NetworkError)
    ensures (r.Failure? && r.error.HttpError?) <==> answer.Delivered? && !Ok(answer.response.status)
    ensures r.Failure? && r.error.HttpError? ==> r.error.status == answer.response.status && r.error.url == url
    ensures r.Success? ==> answer.Delivered? && Ok(answer.response.status)
    ensures answer.Delivered? && answer.response.status == 204 ==> r == Success(Falsy)
    ensures answer.Delivered? && Ok(answer.response.status) && answer.response.status != 204 ==>
      var res := answer.response;
      if Contains(res.contentType.GetOr(""), JsonType) then
        r == (match res.json case Some(j) => Success(j) case None => Failure(BodyError))
      else
        r == (match res.text case Some(t) => Success(if t == [] then Falsy else Wrapped(t)) case None => Failure(BodyError))
  {
    match answer
    case Unreachable => Failure(NetworkError)
    case Delivered(res) =>
      if !Ok(res.status) then Failure(HttpError(res.status, url, FailureMessage(res)))
      else if res.status == 204 then Success(Falsy)
      else if !Contains(res.contentType.GetOr(""), JsonType) then
        match res.text
        case None => Failure(BodyError)
        case Some(text) => Success(if text == [] then Falsy else Wrapped(text))
      else
        match res.json
        case None => Failure(BodyError)
        case Some(j) => Success(j)
  }

  /** `requestJson`: with an empty base URL it fails with NO_BASE_URL and
      sends nothing; otherwise it sends one request to the joined URL and
      classifies the answer. */
  function RequestJson(baseSetting: string, route: Route, answer: Transport): (x: Exchange)
    ensures x.sent.None? <==> NormalizeBase(Some(baseSetting)) == []
    ensures x.sent.None? ==> x.result == Failure(NoBaseUrl)
    ensures x.sent.Some? ==> x.sent.value.verb == route.verb && x.sent.value.body == route.body
    ensures x.sent.Some? ==> x.sent.value.url == JoinUrl(NormalizeBase(Some(baseSetting)), route.path)
    ensures x.sent.Some? ==> x.result == Classify(x.sent.value.url, answer) && x.result != Failure(NoBaseUrl)
  {
    var base := NormalizeBase(Some(baseSetting));
    if base == [] then Exchange(None, Failure(NoBaseUrl))
    else
      var url := JoinUrl(base, route.path);
      Exchange(Some(Request(route.verb, url, route.body)), Classify(url, answer))
  }

  /** An exported call of the client, given the configured base URL. */
  function Perform(baseSetting: string, call: Call, encode: string -> string, answer: Transport): Exchange {
    RequestJson(baseSetting, RouteOf(call, encode), answer)
  }

  /** `pingNotesApi`: true exactly when listing the notes does not fail. */
  function PingNotesApi(baseSetting: string, answer: Transport): (r: Result<bool, ApiError>)
    ensures r.Success? <==> RequestJson(baseSetting, Route(GET, NotesPath, None), answer).result.Success?
    ensures r.Success? ==> r.value
    ensures r.Failure? ==> r.error == RequestJson(baseSetting, Route(GET, NotesPath, None), answer).result.error
  {
    var x := Perform(baseSetting, Ping, s => s, answer);
    match x.result
    case Success(_) => Success(true)
    case Failure(e) => Failure(e)
  }

  /** A base URL made only of slashes counts as missing: no request goes
      out, even though the configured value is not empty. */
  lemma SlashOnlyBase(answer: Transport)
    ensures RequestJson("//", RouteOf(ListCall, s => s), answer).sent.None?
  {
    assert StripTrailing("/", '/') == [];
  }
}

=== FILE: notes_list.dfy ===
/** The sidebar: how a note's title and content preview are shown, the note
    count, the empty-state notice and which row is highlighted. */
module NotesList {
  import opened Wrappers
  import opened Text
  import opened NoteModel

  const NoContent := "No content"
  const PreviewLength := 60
  const Ellipsis := '\U{2026}'
  const LoadingText := "Loading\U{2026}"

  /** `String(note?.title || "")`: the note's title, empty without a note. */
  function TitleText(note: Option<Note>): string {
    if note.Some? then note.value.title else ""
  }

  /** `String(note?.content || "")`: the note's content, empty without a note. */
  function ContentText(note: Option<Note>): string {
    if note.Some? then note.value.content else ""
  }

  /** `formatTitle`: the trimmed title, or "Untitled" when it is blank. The
      result is never empty and never starts or ends with whitespace. */
  function FormatTitle(note: Option<Note>): (r: string)
    ensures r != [] && !IsSpace(r[0]) && !IsSpace(r[|r| - 1])
    ensures AllSpace(TitleText(note)) ==> r == Untitled
    ensures !AllSpace(TitleText(note)) ==> r == Trim(TitleText(note))
  {
    var t := Trim(TitleText(note));
    if |t| > 0 then t else Untitled
  }

  /** A shown title is shown unchanged when it is itself the title. */
  lemma FormatTitleStable(n: Note)
    ensures FormatTitle(Some(n.(title := FormatTitle(Some(n))))) == FormatTitle(Some(n))
  {
    var t := FormatTitle(Some(n));
    assert !AllSpace(t);
    assert LeadingSpaces(t) == 0 && TrailingSpaces(t) == 0;
  }

  /** `String(x).replace(/\s+/g, " ").trim()`: the visible characters of
      `x` in order, single spaces between words and none at the ends. */
  function Tidy(x: string): (c: string)
    ensures c == [] <==> AllSpace(x)
    ensures NonSpace(c) == NonSpace(x)
    ensures c != [] ==> !IsSpace(c[0]) && !IsSpace(c[|c| - 1])
    ensures forall k :: 0 <= k < |c| && IsSpace(c[k]) ==> c[k] == ' '
    ensures forall k :: 0 <= k < |c| - 1 ==> !IsSpace(c[k]) || !IsSpace(c[k + 1])
  {
    var collapsed := CollapseSpaces(x);
    TidyVisible(x);
    TrimKeepsSpacing(collapsed);
    Trim(collapsed)
  }

  /** Collapsing and trimming keep exactly the visible characters. */
  lemma TidyVisible(x: string)
    ensures var c := Trim(CollapseSpaces(x));
      (c == [] <==> AllSpace(x)) && NonSpace(c) == NonSpace(x)
  {
    var collapsed := CollapseSpaces(x);
    NonSpaceTrim(collapsed);
    NonSpaceEmpty(x);
    NonSpaceEmpty(Trim(collapsed));
  }

  /** Trimming keeps single plain spaces single and plain. */
  lemma TrimKeepsSpacing(s: string)
    requires forall k :: 0 <= k < |s| && IsSpace(s[k]) ==> s[k] == ' '
    requires forall k :: 0 <= k < |s| - 1 ==> !IsSpace(s[k]) || !IsSpace(s[k + 1])
    ensures var c := Trim(s);
      && (forall k :: 0 <= k < |c| && IsSpace(c[k]) ==> c[k] == ' ')
      && (forall k :: 0 <= k < |c| - 1 ==> !IsSpace(c[k]) || !IsSpace(c[k + 1]))
  {
    var c := Trim(s);
    var lead := LeadingSpaces(s);
    assert forall k :: 0 <= k < |c| ==> c[k] == s[lead + k];
  }

  /** Tidying keeps a word in place and puts exactly one space between it
      and the next word, however much whitespace separated them. */
  lemma TidyWordThenRest(w: string, ws: string, t: string)
    requires w != [] && NoSpace(w) && ws != [] && AllSpace(ws)
    requires t != [] && !IsSpace(t[0])
    ensures Tidy(w + ws + t) == w + [' '] + Tidy(t)
  {
    CollapseInPlace(w, ws, t);
    var c := CollapseSpaces(t);
    assert c != [] && !IsSpace(c[0]);
    TrimFront(w + [' '], c);
  }

  /** A last word keeps no whitespace after it. */
  lemma TidyWordEnd(w: string, ws: string)
    requires w != [] && NoSpace(w) && AllSpace(ws)
    ensures Tidy(w + ws) == w
  {
    if ws == [] {
      assert w + ws == w;
      CollapseWord(w, []);
      assert w + [] == w;
      TrimFixed(w);
    } else {
      CollapseInPlace(w, ws, []);
      assert w + ws + [] == w + ws;
      assert CollapseSpaces([]) == [];
      assert w + [' '] + [] == w + [' '];
      TrimAround([], w, [' ']);
      assert [] + w + [' '] == w + [' '];
    }
  }

  /** Whitespace before the first word is dropped. */
  lemma TidyLeading(ws: string, t: string)
    requires AllSpace(ws)
    requires t == [] || !IsSpace(t[0])
    ensures Tidy(ws + t) == Tidy(t)
  {
    if ws == [] {
      assert ws + t == t;
    } else {
      CollapseRun(ws, t);
      var c := CollapseSpaces(t);
      TrimPadded([' '], c, []);
      assert [' '] + c + [] == [' '] + c;
    }
  }

  /** The first 60 characters followed by an ellipsis. */
  function Cut(c: string): string
    requires |c| > PreviewLength
  {
    c[..PreviewLength] + [Ellipsis]
  }

  /** Cutting keeps the tidy shape of the kept part. */
  lemma CutKeepsShape(c: string)
    requires |c| > PreviewLength && !IsSpace(c[0])
    requires forall k :: 0 <= k < |c| && IsSpace(c[k]) ==> c[k] == ' '
    requires forall k :: 0 <= k < |c| - 1 ==> !IsSpace(c[k]) || !IsSpace(c[k + 1])
    ensures var r := Cut(c);
      && |r| == PreviewLength + 1 && !IsSpace(r[0]) && r[PreviewLength] == Ellipsis
      && (forall k :: 0 <= k < |r| && IsSpace(r[k]) ==> r[k] == ' ')
      && (forall k :: 0 <= k < |r| - 1 ==> !IsSpace(r[k]) || !IsSpace(r[k + 1]))
      && NonSpace(r[..PreviewLength]) <= NonSpace(c)
  {
    var r := Cut(c);
    assert r[..PreviewLength] == c[..PreviewLength];
    assert forall k :: 0 <= k < PreviewLength ==> r[k] == c[k];
    NonSpacePrefix(c, PreviewLength);
  }

  /** `formatPreview`: the tidied content; "No content" when nothing
      visible is left; otherwise cut to 60 characters followed by an
      ellipsis when longer. The preview holds every visible character of
      the content in order when it is not cut, and a prefix of them when it
      is. */
  function FormatPreview(note: Option<Note>): (r: string)
    ensures 0 < |r| <= PreviewLength + 1
    ensures AllSpace(ContentText(note)) ==> r == NoContent
    ensures !AllSpace(ContentText(note)) ==>
      && !IsSpace(r[0])
      && (forall k :: 0 <= k < |r| && IsSpace(r[k]) ==> r[k] == ' ')
      && (forall k :: 0 <= k < |r| - 1 ==> !IsSpace(r[k]) || !IsSpace(r[k + 1]))
      && (|r| <= PreviewLength ==> !IsSpace(r[|r| - 1]) && NonSpace(r) == NonSpace(ContentText(note)))
      && (|r| > PreviewLength ==>
            r[PreviewLength] == Ellipsis && NonSpace(r[..PreviewLength]) <= NonSpace(ContentText(note)))
    ensures var c := Tidy(ContentText(note));
      && (0 < |c| <= PreviewLength ==> r == c)
      && (|c| > PreviewLength ==> r == c[..PreviewLength] + [Ellipsis])
  {
    var c := Tidy(ContentText(note));
    if c == [] then NoContent
    else if |c| > PreviewLength then
      CutKeepsShape(c);
      Cut(c)
    else c
  }

  /** The header count: `${n} note` with an `s` unless `n` is one. */
  function CountText(n: nat): (r: string)
    ensures r == Decimal(n) + " note" || r == Decimal(n) + " notes"
    ensures r[|r| - 1] == 's' <==> n != 1
  {
    Decimal(n) + " note" + (if n == 1 then "" else "s")
  }

  /** The count in the header reads back as the number of notes. */
  lemma CountTextReadsBack(n: nat)
    ensures var d := Decimal(n); CountText(n)[..|d|] == d && DecimalValue(d) == n
  {
    DecimalRoundTrip(n);
  }

  /** A row is highlighted when the selection is set and names its note. */
  predicate Active(n: Note, selected: Option<string>) {
    selected.Some? && HasId(n, selected.value)
  }

  datatype Row = Row(id: Option<string>, title: string, preview: string, active: bool)

  /** What the sidebar shows: the header line, whether the empty-state
      notice is shown, and one row per note. */
  datatype Sidebar = Sidebar(meta: string, empty: bool, rows: seq<Row>)

  function RenderRow(n: Note, selected: Option<string>): Row {
    Row(n.id, FormatTitle(Some(n)), FormatPreview(Some(n)), Active(n, selected))
  }

  /** `NotesList`: the header shows the loading text while loading and the
      count otherwise; the empty-state notice shows exactly when there are
      no notes and nothing is loading, and then the header reads "0 notes";
      the rows follow the notes in order. */
  function RenderSidebar(notes: seq<Note>, selected: Option<string>, loading: bool): (v: Sidebar)
    ensures loading ==> v.meta == LoadingText
    ensures !loading ==> v.meta == CountText(|notes|)
    ensures v.empty <==> notes == [] && !loading
    ensures v.empty ==> v.meta == "0 notes"
    ensures |v.rows| == |notes|
    ensures forall i :: 0 <= i < |notes| ==>
      && v.rows[i].id == notes[i].id
      && v.rows[i].title == FormatTitle(Some(notes[i]))
      && v.rows[i].preview == FormatPreview(Some(notes[i]))
      && (v.rows[i].active <==> selected.Some? && notes[i].id == selected)
  {
    var rows := seq(|notes|, i requires 0 <= i < |notes| => RenderRow(notes[i], selected));
    Sidebar(if loading then LoadingText else CountText(|notes|), |notes| == 0 && !loading, rows)
  }

  /** When note ids are distinct, at most one row is highlighted. */
  lemma AtMostOneActive(notes: seq<Note>, selected: Option<string>, loading: bool)
    requires forall a, b :: 0 <= a < b < |notes| ==> notes[a].id != notes[b].id
    ensures var rows := RenderSidebar(notes, selected, loading).rows;
      forall i, j :: 0 <= i < |rows| && 0 <= j < |rows| && rows[i].active && rows[j].active ==> i == j
  {
  }
}

=== FILE: notes_repository.dfy ===
/** The repository: decides once per session whether notes live on the
    remote service or in local storage, downgrades to local storage for the
    rest of the session on any remote failure, and normalises remote
    answers to the canonical note shape. The session state that the source
    keeps in a module variable is explicit here, and the network's answers
    are parameters. */
module NotesRepository {
  import opened Wrappers
  import opened NoteModel
  import Env
  import Text
  import opened NotesApi
  import opened NotesStub

  datatype Mode = Remote | Stub

  /** The mode's name as the repository reports it. */
  function ModeName(m: Mode): (r: string)
    ensures r == "remote" <==> m.Remote?
    ensures r == "stub" <==> m.Stub?
  {
    if m.Remote? then "remote" else "stub"
  }

  /** The session: the cached mode (`None` until first resolved) and the
      local storage slot. */
  datatype Session = Session(cached: Option<Mode>, slot: Slot)

  /** What the repository reads from its surroundings: the environment, the
      outcome of `JSON.parse` on the feature-flag text, the name of the flag
      that switches the remote service on or off, and `encodeURIComponent`. */
  datatype Config = Config(
    env: Env.Environment,
    parseObject: string -> Option<Env.Flags>,
    remoteFlag: string,
    encode: string -> string)

  /** The network's answers to the reachability ping and to the operation's
      own request. */
  datatype Replies = Replies(probe: Transport, answer: Transport)

  /** An operation's result, the session after it, and the client calls it
      made, in order. */
  datatype Outcome<T> = Outcome(value: T, session: Session, calls: seq<Call>)

  /** The cached mode only ever moves forward: from unresolved to resolved,
      or from remote to stub. */
  predicate Follows(before: Option<Mode>, after: Option<Mode>) {
    before == after || (before.None? && after.Some?) || (before == Some(Remote) && after == Some(Stub))
  }

  lemma FollowsTransitive(a: Option<Mode>, b: Option<Mode>, c: Option<Mode>)
    requires Follows(a, b) && Follows(b, c)
    ensures Follows(a, c)
  {
  }

  function BaseSetting(cfg: Config): string {
    Env.ApiBaseUrl(cfg.env)
  }

  /** `shouldTryRemote`: never without a base URL; otherwise the remote
      flag's truthiness when the flag is present, and yes when it is not. */
  function ShouldTryRemote(cfg: Config): (b: bool)
    ensures BaseSetting(cfg) == [] ==> !b
    ensures BaseSetting(cfg) != [] ==>
      var flags := Env.FeatureFlags(cfg.env, cfg.parseObject);
      b == (cfg.remoteFlag !in flags || flags[cfg.remoteFlag])
  {
    if BaseSetting(cfg) == [] then false
    else
      var flags := Env.FeatureFlags(cfg.env, cfg.parseObject);
      if cfg.remoteFlag in flags then flags[cfg.remoteFlag] else true
  }

  /** Without feature flags the service is tried exactly when one of the
      two base URL variables is set. */
  lemma TryRemoteWithoutFlags(cfg: Config)
    requires !Env.Configured(cfg.env, Env.FeatureFlagsVar)
    ensures ShouldTryRemote(cfg) <==>
      Env.Configured(cfg.env, Env.ApiBaseVar) || Env.Configured(cfg.env, Env.BackendUrlVar)
  {
  }

  /** A comma-separated flag list naming the remote flag, among other
      segments and with whitespace around it, switches the service on. */
  lemma TryRemoteWhenListed(cfg: Config, i: nat)
    requires BaseSetting(cfg) != [] && cfg.remoteFlag != []
    requires Env.Configured(cfg.env, Env.FeatureFlagsVar)
    requires var raw := Text.Trim(cfg.env[Env.FeatureFlagsVar]);
      && cfg.parseObject(raw).None?
      && i < |Text.Split(raw, ',')|
      && Text.Trim(Text.Split(raw, ',')[i]) == cfg.remoteFlag
    ensures ShouldTryRemote(cfg)
  {
  }

  /** A flag object that sets the remote flag to false switches the service
      off, whatever the base URL. */
  lemma NoRemoteWhenDisabled(cfg: Config)
    requires Env.Configured(cfg.env, Env.FeatureFlagsVar)
    requires var parsed := cfg.parseObject(Text.Trim(cfg.env[Env.FeatureFlagsVar]));
      parsed.Some? && cfg.remoteFlag in parsed.value && !parsed.value[cfg.remoteFlag]
    ensures !ShouldTryRemote(cfg)
  {
  }

  /** `detectMode`: a cached mode is returned as is, with no ping; otherwise
      stub when remote is not to be tried, else remote exactly when the ping
      succeeds. The answer is always cached and nothing is raised. */
  function DetectMode(s: Session, cfg: Config, probe: Transport): (r: Outcome<Mode>)
    ensures s.cached.Some? ==> r == Outcome(s.cached.value, s, [])
    ensures s.cached.None? && !ShouldTryRemote(cfg) ==> r.value == Stub && r.calls == []
    ensures s.cached.None? && ShouldTryRemote(cfg) ==>
      r.calls == [Ping] && (r.value == Remote <==> PingNotesApi(BaseSetting(cfg), probe).Success?)
    ensures r.session == Session(Some(r.value), s.slot)
  {
    match s.cached
    case Some(m) => Outcome(m, s, [])
    case None =>
      if !ShouldTryRemote(cfg) then Outcome(Stub, s.(cached := Some(Stub)), [])
      else
        var m := if PingNotesApi(BaseSetting(cfg), probe).Success? then Remote else Stub;
        Outcome(m, s.(cached := Some(m)), [Ping])
  }

  /** `getRepositoryMode`: the mode, resolving it if needed. */
  function GetRepositoryMode(s: Session, cfg: Config, probe: Transport): (r: Outcome<Mode>)
    ensures r.session.cached == Some(r.value)
    ensures Follows(s.cached, r.session.cached) && r.session.slot == s.slot
    ensures Ping in r.calls <==> s.cached.None? && ShouldTryRemote(cfg)
    ensures multiset(r.calls)[Ping] <= 1
    ensures s.cached.Some? ==> r == Outcome(s.cached.value, s, [])
    ensures s.cached.None? && !ShouldTryRemote(cfg) ==> r.value == Stub
    ensures s.cached.None? && ShouldTryRemote(cfg) ==>
      (r.value == Remote <==> PingNotesApi(BaseSetting(cfg), probe).Success?)
  {
    DetectMode(s, cfg, probe)
  }

  /** The note fields of a JSON value: an object's own, none for anything else. */
  function FieldsOf(j: Json): RawNote {
    match j
    case Obj(fields, _) => fields
    case _ => RawNote(None, None, None, None, None)
  }

  /** `normalizeFromApi`: a falsy value passes through as is (`None`); any
      other value becomes a five-field note whose missing title and content
      are empty and whose id and timestamps are copied as found. */
  function NormalizeFromApi(j: Json): (r: Option<Note>)
    ensures r.None? <==> j.Falsy?
    ensures r.Some? ==>
      r.value.id == FieldsOf(j).id && r.value.createdAt == FieldsOf(j).createdAt && r.value.updatedAt == FieldsOf(j).updatedAt
    ensures r.Some? ==> r.value.title == FieldsOf(j).title.GetOr("") && r.value.content == FieldsOf(j).content.GetOr("")
  {
    if j.Falsy? then None
    else
      var f := FieldsOf(j);
      Some(Note(f.id, f.title.GetOr(""), f.content.GetOr(""), f.createdAt, f.updatedAt))
  }

  /** A note the service sends back in canonical shape arrives unchanged. */
  lemma NormalizeCanonical(n: Note, items: Option<seq<Json>>)
    ensures NormalizeFromApi(Obj(ToRaw(n), items)) == Some(n)
  {
  }

  /** On a record with both timestamps, the remote and the local
      normalisations agree. */
  lemma NormalizationsAgree(raw: RawNote, now: string, items: Option<seq<Json>>)
    requires raw.createdAt.Some? && raw.updatedAt.Some?
    ensures NormalizeFromApi(Obj(raw, items)) == Some(NormalizeNote(raw, now))
  {
  }

  function NormalizeEach(js: seq<Json>): (r: seq<Option<Note>>)
    ensures |r| == |js|
    ensures forall i :: 0 <= i < |js| ==> r[i] == NormalizeFromApi(js[i])
  {
    seq(|js|, i requires 0 <= i < |js| => NormalizeFromApi(js[i]))
  }

  /** `normalizeListFromApi`: an array, or the `items` array of an object,
      normalised element by element; anything else is the empty list. */
  function NormalizeListFromApi(j: Json): (r: seq<Option<Note>>)
    ensures j.Arr? ==> r == NormalizeEach(j.elems)
    ensures j.Obj? && j.items.Some? ==> r == NormalizeEach(j.items.value)
    ensures !j.Arr? && !(j.Obj? && j.items.Some?) ==> r == []
  {
    match j
    case Arr(elems) => NormalizeEach(elems)
    case Obj(_, Some(items)) => NormalizeEach(items)
    case _ => []
  }

  /** Both shapes the service may answer a listing with, a bare array or an
      object carrying it as `items`, give the same notes, one per element. */
  lemma ListShapesAgree(xs: seq<Json>, fields: RawNote)
    ensures NormalizeListFromApi(Arr(xs)) == NormalizeListFromApi(Obj(fields, Some(xs)))
    ensures |NormalizeListFromApi(Arr(xs))| == |xs|
  {
  }

  /** What the client call resolves or rejects with, given the configuration. */
  function RemoteResult(cfg: Config, call: Call, answer: Transport): Result<Json, ApiError> {
    Perform(BaseSetting(cfg), call, cfg.encode, answer).result
  }

  /** The remote store serves a call when the session resolves to remote
      and the client call succeeds. */
  predicate RemoteServes(s: Session, cfg: Config, rp: Replies, call: Call) {
    DetectMode(s, cfg, rp.probe).value == Remote && RemoteResult(cfg, call, rp.answer).Success?
  }

  /** The client calls an operation makes: those that resolve the mode,
      then the operation's own call when the mode is remote. */
  function CallsMade(s: Session, cfg: Config, rp: Replies, call: Call): seq<Call> {
    var m := DetectMode(s, cfg, rp.probe);
    m.calls + (if m.value == Remote then [call] else [])
  }

  /** The policy every operation follows: resolve the mode; in remote mode
      make the client call and, when it succeeds, answer from it without
      touching local storage; when it fails, or in stub mode, cache stub and
      answer as the local store does. `local` is the local store's answer to
      the same operation on the session's slot; it takes effect only when
      the local store serves the call. */
  function Dispatch<T>(s: Session, cfg: Config, rp: Replies, call: Call,
                       fromRemote: Json -> T, local: Step<T>): (r: Outcome<T>)
    requires !call.Ping?
    ensures s.cached.Some? ==> Ping !in r.calls
    ensures multiset(r.calls)[Ping] <= 1
    ensures Follows(s.cached, r.session.cached) && r.session.cached.Some?
    ensures r.session.cached == Some(Stub) ==> r.value == local.value && r.session.slot == local.slot
    ensures r.session.cached == Some(Remote) ==>
      && RemoteResult(cfg, call, rp.answer).Success?
      && r.value == fromRemote(RemoteResult(cfg, call, rp.answer).value)
      && r.session.slot == s.slot
    ensures s.cached == Some(Stub) ==> r.calls == []
    ensures s.cached == Some(Remote) ==> r.calls == [call]
    ensures s.cached == Some(Remote) && RemoteResult(cfg, call, rp.answer).Failure? ==> r.session.cached == Some(Stub)
    ensures r.session.cached == Some(Remote) <==> RemoteServes(s, cfg, rp, call)
    ensures r.calls == CallsMade(s, cfg, rp, call)
  {
    var m := DetectMode(s, cfg, rp.probe);
    if m.value == Remote then
      match RemoteResult(cfg, call, rp.answer)
      case Success(j) => Outcome(fromRemote(j), m.session, m.calls + [call])
      case Failure(_) => Outcome(local.value, Session(Some(Stub), local.slot), m.calls + [call])
    else
      assert s.cached.Some? ==> s.cached.value.Stub?;
      Outcome(local.value, Session(Some(Stub), local.slot), m.calls)
  }

  function LiftAll(ns: seq<Note>): (r: seq<Option<Note>>)
    ensures |r| == |ns| && forall i :: 0 <= i < |ns| ==> r[i] == Some(ns[i])
  {
    seq(|ns|, i requires 0 <= i < |ns| => Some(ns[i]))
  }

  /** `listNotes`. */
  function ListNotes(s: Session, cfg: Config, rp: Replies, d: Draws): (r: Outcome<seq<Option<Note>>>)
    ensures Follows(s.cached, r.session.cached) && r.session.cached.Some?
    ensures r.session.cached == Some(Stub) ==>
      var st := StubList(s.slot, d);
      r.value == LiftAll(st.value) && r.session.slot == st.slot
    ensures r.session.cached == Some(Remote) ==>
      var x := RemoteResult(cfg, ListCall, rp.answer);
      x.Success? && r.value == NormalizeListFromApi(x.value) && r.session.slot == s.slot
    ensures s.cached == Some(Stub) ==> r.calls == []
    ensures s.cached.Some? ==> Ping !in r.calls
    ensures multiset(r.calls)[Ping] <= 1
    ensures r.session.cached == Some(Remote) <==> RemoteServes(s, cfg, rp, ListCall)
    ensures r.calls == CallsMade(s, cfg, rp, ListCall)
  {
    var st := StubList(s.slot, d);
    Dispatch(s, cfg, rp, ListCall, NormalizeListFromApi, Step(LiftAll(st.value), st.slot))
  }

  /** `getNote`: a 404 from the service is a failure like any other and
      falls back to the local store. */
  function GetNote(s: Session, cfg: Config, rp: Replies, d: Draws, id: string): (r: Outcome<Option<Note>>)
    ensures Follows(s.cached, r.session.cached) && r.session.cached.Some?
    ensures r.session.cached == Some(Stub) ==>
      var st := StubGet(s.slot, d, id);
      r.value == st.value && r.session.slot == st.slot
    ensures r.session.cached == Some(Remote) ==>
      var x := RemoteResult(cfg, GetCall(id), rp.answer);
      x.Success? && r.value == NormalizeFromApi(x.value) && r.session.slot == s.slot
    ensures s.cached == Some(Stub) ==> r.calls == []
    ensures s.cached.Some? ==> Ping !in r.calls
    ensures multiset(r.calls)[Ping] <= 1
    ensures r.session.cached == Some(Remote) <==> RemoteServes(s, cfg, rp, GetCall(id))
    ensures r.calls == CallsMade(s, cfg, rp, GetCall(id))
  {
    Dispatch(s, cfg, rp, GetCall(id), NormalizeFromApi, StubGet(s.slot, d, id))
  }

  /** `createNote`. */
  function CreateNote(s: Session, cfg: Config, rp: Replies, d: Draws, payload: Payload): (r: Outcome<Option<Note>>)
    ensures Follows(s.cached, r.session.cached) && r.session.cached.Some?
    ensures r.session.cached == Some(Stub) ==>
      var st := StubCreate(s.slot, d, payload);
      r.value == Some(st.value) && r.session.slot == st.slot
    ensures r.session.cached == Some(Remote) ==>
      var x := RemoteResult(cfg, CreateCall(payload), rp.answer);
      x.Success? && r.value == NormalizeFromApi(x.value) && r.session.slot == s.slot
    ensures s.cached == Some(Stub) ==> r.calls == []
    ensures s.cached.Some? ==> Ping !in r.calls
    ensures multiset(r.calls)[Ping] <= 1
    ensures r.session.cached == Some(Remote) <==> RemoteServes(s, cfg, rp, CreateCall(payload))
    ensures r.calls == CallsMade(s, cfg, rp, CreateCall(payload))
  {
    var st := StubCreate(s.slot, d, payload);
    Dispatch(s, cfg, rp, CreateCall(payload), NormalizeFromApi, Step(Some(st.value), st.slot))
  }

  /** `updateNote`. */
  function UpdateNote(s: Session, cfg: Config, rp: Replies, d: Draws, id: string, payload: Payload): (r: Outcome<Option<Note>>)
    ensures Follows(s.cached, r.session.cached) && r.session.cached.Some?
    ensures r.session.cached == Some(Stub) ==>
      var st := StubUpdate(s.slot, d, id, payload);
      r.value == st.value && r.session.slot == st.slot
    ensures r.session.cached == Some(Remote) ==>
      var x := RemoteResult(cfg, UpdateCall(id, payload), rp.answer);
      x.Success? && r.value == NormalizeFromApi(x.value) && r.session.slot == s.slot
    ensures s.cached == Some(Stub) ==> r.calls == []
    ensures s.cached.Some? ==> Ping !in r.calls
    ensures multiset(r.calls)[Ping] <= 1
    ensures r.session.cached == Some(Remote) <==> RemoteServes(s, cfg, rp, UpdateCall(id, payload))
    ensures r.calls == CallsMade(s, cfg, rp, UpdateCall(id, payload))
  {
    Dispatch(s, cfg, rp, UpdateCall(id, payload), NormalizeFromApi, StubUpdate(s.slot, d, id, payload))
  }

  /** `deleteNote`: true whichever store serves it. */
  function DeleteNote(s: Session, cfg: Config, rp: Replies, d: Draws, id: string): (r: Outcome<bool>)
    ensures r.value
    ensures Follows(s.cached, r.session.cached) && r.session.cached.Some?
    ensures r.session.cached == Some(Stub) ==> r.session.slot == StubDelete(s.slot, d, id).slot
    ensures r.session.cached == Some(Remote) ==> RemoteResult(cfg, DeleteCall(id), rp.answer).Success? && r.session.slot == s.slot
    ensures s.cached == Some(Stub) ==> r.calls == []
    ensures s.cached.Some? ==> Ping !in r.calls
    ensures multiset(r.calls)[Ping] <= 1
    ensures r.session.cached == Some(Remote) <==> RemoteServes(s, cfg, rp, DeleteCall(id))
    ensures r.calls == CallsMade(s, cfg, rp, DeleteCall(id))
  {
    Dispatch(s, cfg, rp, DeleteCall(id), (j: Json) => true, StubDelete(s.slot, d, id))
  }

  // ---------------------------------------------------------------------
  // Sessions: sequences of operations

  datatype Op =
    | ListOp
    | GetOp(id: string)
    | CreateOp(payload: Payload)
    | UpdateOp(id: string, payload: Payload)
    | DeleteOp(id: string)
    | ModeOp

  /** One operation's effect on the session, and the client calls it made. */
  function Apply(s: Session, cfg: Config, op: Op, rp: Replies, d: Draws): (r: (Session, seq<Call>))
    ensures Follows(s.cached, r.0.cached) && r.0.cached.Some?
    ensures s.cached == Some(Stub) ==> r.1 == [] && r.0.cached == Some(Stub)
    ensures s.cached.Some? ==> Ping !in r.1
    ensures multiset(r.1)[Ping] <= 1
  {
    match op
    case ListOp => var o := ListNotes(s, cfg, rp, d); (o.session, o.calls)
    case GetOp(id) => var o := GetNote(s, cfg, rp, d, id); (o.session, o.calls)
    case CreateOp(p) => var o := CreateNote(s, cfg, rp, d, p); (o.session, o.calls)
    case UpdateOp(id, p) => var o := UpdateNote(s, cfg, rp, d, id, p); (o.session, o.calls)
    case DeleteOp(id) => var o := DeleteNote(s, cfg, rp, d, id); (o.session, o.calls)
    case ModeOp => var o := GetRepositoryMode(s, cfg, rp.probe); (o.session, o.calls)
  }

  /** A session's operations applied in order; the calls of all of them. */
  function RunOps(s: Session, cfg: Config, ops: seq<Op>, rps: seq<Replies>, ds: seq<Draws>): (Session, seq<Call>)
    requires |rps| == |ops| && |ds| == |ops|
    decreases |ops|
  {
    if ops == [] then (s, [])
    else
      var first := Apply(s, cfg, ops[0], rps[0], ds[0]);
      var rest := RunOps(first.0, cfg, ops[1..], rps[1..], ds[1..]);
      (rest.0, first.1 + rest.1)
  }

  /** Over a whole session the mode only moves forward. */
  lemma {:induction false} RunOpsFollows(s: Session, cfg: Config, ops: seq<Op>, rps: seq<Replies>, ds: seq<Draws>)
    requires |rps| == |ops| && |ds| == |ops|
    ensures Follows(s.cached, RunOps(s, cfg, ops, rps, ds).0.cached)
    decreases |ops|
  {
    if ops != [] {
      var first := Apply(s, cfg, ops[0], rps[0], ds[0]);
      RunOpsFollows(first.0, cfg, ops[1..], rps[1..], ds[1..]);
      FollowsTransitive(s.cached, first.0.cached, RunOps(first.0, cfg, ops[1..], rps[1..], ds[1..]).0.cached);
    }
  }

  /** Once stub, always stub: after a downgrade no later operation of the
      session calls the remote client at all. */
  lemma {:induction false} StubIsFinal(s: Session, cfg: Config, ops: seq<Op>, rps: seq<Replies>, ds: seq<Draws>)
    requires |rps| == |ops| && |ds| == |ops|
    requires s.cached == Some(Stub)
    ensures RunOps(s, cfg, ops, rps, ds) .0.cached == Some(Stub)
    ensures RunOps(s, cfg, ops, rps, ds).1 == []
    decreases |ops|
  {
    if ops != [] {
      var first := Apply(s, cfg, ops[0], rps[0], ds[0]);
      StubIsFinal(first.0, cfg, ops[1..], rps[1..], ds[1..]);
    }
  }

  /** Once the mode is resolved, no later operation pings. */
  lemma {:induction false} NoPingOnceResolved(s: Session, cfg: Config, ops: seq<Op>, rps: seq<Replies>, ds: seq<Draws>)
    requires |rps| == |ops| && |ds| == |ops|
    requires s.cached.Some?
    ensures Ping !in RunOps(s, cfg, ops, rps, ds).1
    decreases |ops|
  {
    if ops != [] {
      var first := Apply(s, cfg, ops[0], rps[0], ds[0]);
      NoPingOnceResolved(first.0, cfg, ops[1..], rps[1..], ds[1..]);
    }
  }

  /** A whole session pings at most once. */
  lemma {:induction false} PingAtMostOnce(s: Session, cfg: Config, ops: seq<Op>, rps: seq<Replies>, ds: seq<Draws>)
    requires |rps| == |ops| && |ds| == |ops|
    ensures multiset(RunOps(s, cfg, ops, rps, ds).1)[Ping] <= 1
    decreases |ops|
  {
    if ops != [] {
      var first := Apply(s, cfg, ops[0], rps[0], ds[0]);
      var rest := RunOps(first.0, cfg, ops[1..], rps[1..], ds[1..]);
      NoPingOnceResolved(first.0, cfg, ops[1..], rps[1..], ds[1..]);
      assert multiset(rest.1)[Ping] == 0;
      assert multiset(first.1 + rest.1) == multiset(first.1) + multiset(rest.1);
    }
  }

  /** With a configured but unreachable service, creating a note on a fresh
      session answers from the local store with the given fields, and the
      session is stub from then on. */
  lemma CreateWhenUnreachable(cfg: Config, slot: Slot, d: Draws, answer: Transport)
    requires ShouldTryRemote(cfg)
    ensures var r := CreateNote(Session(None, slot), cfg, Replies(Unreachable, answer), d, Payload(Some("A"), Some("B")));
      && r.session.cached == Some(Stub)
      && r.value == Some(Note(Some(d.newId), "A", "B", Some(d.created), Some(d.now)))
      && r.calls == [Ping]
  {
    var base := BaseSetting(cfg);
    if NormalizeBase(Some(base)) != [] {
      assert Classify(JoinUrl(NormalizeBase(Some(base)), NotesPath), Unreachable).Failure?;
    }
  }
}

=== FILE: notes_stub.dfy ===
/** The local note store: the whole list of notes kept under one storage
    key, read and rewritten in full by every operation, seeded with a
    welcome note on first use. The storage slot, the id generator and the
    clock are parameters. */
module NotesStub {
  import opened Wrappers
  import opened Text
  import opened NoteModel

  const WelcomeTitle := "Welcome"
  const WelcomeContent := "This is a simple notes app.\n\nUse the + New Note button to create notes, then edit or delete them from the main panel."

  /** The storage slot of the key `simple_notes_app.notes.v1`: `Some(records)`
      when it holds an array, `None` when it is empty or holds anything else. */
  type Slot = Option<seq<RawNote>>

  /** The values one operation draws: the id of a seeded welcome note, the
      id of a created note, the instant read for a new note's creation
      stamp, and the instant read for every other stamp (ISO-8601). The two
      instants are separate readings of the clock and may differ. */
  datatype Draws = Draws(seedId: string, newId: string, created: string, now: string)

  /** An operation's result together with the slot it leaves behind. */
  datatype Step<T> = Step(value: T, slot: Slot)

  /** `normalizeNote`: keeps the id, fills a missing title or content with
      the empty string and a missing timestamp with `now`. */
  function NormalizeNote(raw: RawNote, now: string): (n: Note)
    ensures Stamped(n) && n.id == raw.id
    ensures n.title == raw.title.GetOr("") && n.content == raw.content.GetOr("")
    ensures raw.createdAt.Some? ==> n.createdAt == raw.createdAt
    ensures raw.updatedAt.Some? ==> n.updatedAt == raw.updatedAt
    ensures raw.createdAt.None? ==> n.createdAt == Some(now)
    ensures raw.updatedAt.None? ==> n.updatedAt == Some(now)
  {
    Note(raw.id, raw.title.GetOr(""), raw.content.GetOr(""),
         Some(raw.createdAt.GetOr(now)), Some(raw.updatedAt.GetOr(now)))
  }

  /** Normalising an already normalised note changes nothing, whatever the
      clock says the second time. */
  lemma NormalizeNoteIdempotent(raw: RawNote, now: string, later: string)
    ensures NormalizeNote(ToRaw(NormalizeNote(raw, now)), later) == NormalizeNote(raw, now)
  {
  }

  /** A stamped note is a fixed point of normalisation. */
  lemma NormalizeStamped(n: Note, now: string)
    requires Stamped(n)
    ensures NormalizeNote(ToRaw(n), now) == n
  {
  }

  function NormalizeAll(records: seq<RawNote>, now: string): (ns: seq<Note>)
    ensures |ns| == |records|
    ensures forall i :: 0 <= i < |ns| ==> ns[i] == NormalizeNote(records[i], now)
  {
    seq(|records|, i requires 0 <= i < |records| => NormalizeNote(records[i], now))
  }

  /** The records a list of notes is stored as. */
  function Stored(notes: seq<Note>): (records: seq<RawNote>)
    ensures |records| == |notes|
    ensures forall i :: 0 <= i < |notes| ==> records[i] == ToRaw(notes[i])
  {
    seq(|notes|, i requires 0 <= i < |notes| => ToRaw(notes[i]))
  }

  predicate AllStamped(notes: seq<Note>) {
    forall i :: 0 <= i < |notes| ==> Stamped(notes[i])
  }

  /** The welcome note written on first use. */
  function SeedNote(d: Draws): Note {
    NormalizeNote(RawNote(Some(d.seedId), Some(WelcomeTitle), Some(WelcomeContent), Some(d.created), Some(d.now)), d.now)
  }

  /** `readAll`: a stored array is returned normalised and nothing is
      written; otherwise exactly one welcome note is stored and returned. */
  function ReadAll(slot: Slot, d: Draws): (r: Step<seq<Note>>)
    ensures AllStamped(r.value)
    ensures slot.Some? ==> r.slot == slot && r.value == NormalizeAll(slot.value, d.now)
    ensures slot.None? ==> |r.value| == 1 && r.value[0].title == WelcomeTitle && r.value[0].id == Some(d.seedId)
    ensures slot.None? ==> r.slot == Some(Stored(r.value))
  {
    match slot
    case Some(records) => Step(NormalizeAll(records, d.now), slot)
    case None =>
      var seed := [SeedNote(d)];
      Step(seed, Some(Stored(seed)))
  }

  /** `writeAll`: the notes, normalised, become the stored array. */
  function WriteAll(notes: seq<Note>, now: string): (slot: Slot)
    ensures AllStamped(notes) ==> slot == Some(Stored(notes))
  {
    var records := seq(|notes|, i requires 0 <= i < |notes| => ToRaw(NormalizeNote(ToRaw(notes[i]), now)));
    assert AllStamped(notes) ==> records == Stored(notes);
    Some(records)
  }

  /** Reading back what was written gives the same notes and writes nothing. */
  lemma ReadAfterWrite(notes: seq<Note>, d: Draws)
    requires AllStamped(notes)
    ensures ReadAll(Some(Stored(notes)), d) == Step(notes, Some(Stored(notes)))
  {
    var back := NormalizeAll(Stored(notes), d.now);
    forall i | 0 <= i < |notes|
      ensures back[i] == notes[i]
    {
      NormalizeStamped(notes[i], d.now);
    }
    assert back == notes;
  }

  /** The welcome note is seeded once: a second read returns the same
      single note and leaves the slot as the first read left it. */
  lemma SeedOnce(d: Draws, later: Draws)
    ensures var first := ReadAll(None, d);
      ReadAll(first.slot, later) == first
  {
    var first := ReadAll(None, d);
    ReadAfterWrite(first.value, later);
  }

  // ---------------------------------------------------------------------
  // Ordering by `updatedAt`, most recent first

  /** `String(note.updatedAt)`. */
  function UpdatedKey(n: Note): string {
    match n.updatedAt
    case Some(t) => t
    case None => "undefined"
  }

  /** Each note is at least as recent as the one after it. */
  predicate SortedDesc(ns: seq<Note>) {
    forall i :: 0 <= i < |ns| - 1 ==> LexLe(UpdatedKey(ns[i + 1]), UpdatedKey(ns[i]))
  }

  /** Every note is at least as recent as every later one. */
  lemma {:induction false} SortedDescAllPairs(ns: seq<Note>, i: int, j: int)
    requires SortedDesc(ns)
    requires 0 <= i <= j < |ns|
    ensures LexLe(UpdatedKey(ns[j]), UpdatedKey(ns[i]))
    decreases j - i
  {
    if i == j {
      LexLeTotal(UpdatedKey(ns[i]), UpdatedKey(ns[i]));
    } else {
      SortedDescAllPairs(ns, i + 1, j);
      LexLeTransitive(UpdatedKey(ns[j]), UpdatedKey(ns[i + 1]), UpdatedKey(ns[i]));
    }
  }

  /** Puts `n` in front of the first note that is not more recent than it. */
  function Insert(n: Note, ns: seq<Note>): (r: seq<Note>)
    requires SortedDesc(ns)
    ensures SortedDesc(r)
    ensures multiset(r) == multiset(ns) + multiset{n}
    ensures r[0] == n || (ns != [] && r[0] == ns[0])
  {
    if ns == [] || LexLe(UpdatedKey(ns[0]), UpdatedKey(n)) then [n] + ns
    else
      LexLeTotal(UpdatedKey(ns[0]), UpdatedKey(n));
      var rest := Insert(n, ns[1..]);
      assert ns == [ns[0]] + ns[1..];
      [ns[0]] + rest
  }

  /** `sortByUpdatedDesc`: a stable sort of a copy, most recently updated
      first. The result is a permutation of the input, ordered. */
  function SortByUpdatedDesc(ns: seq<Note>): (r: seq<Note>)
    ensures SortedDesc(r)
    ensures multiset(r) == multiset(ns)
    ensures |r| == |ns|
  {
    if ns == [] then []
    else
      assert ns == [ns[0]] + ns[1..];
      Insert(ns[0], SortByUpdatedDesc(ns[1..]))
  }

  /** A list already in order comes back unchanged. */
  lemma {:induction false} SortKeepsOrdered(ns: seq<Note>)
    requires SortedDesc(ns)
    ensures SortByUpdatedDesc(ns) == ns
  {
    if ns != [] {
      SortKeepsOrdered(ns[1..]);
      assert ns == [ns[0]] + ns[1..];
    }
  }

  // ---------------------------------------------------------------------
  // Lookup and removal by id

  /** `filter((n) => n.id !== id)`. */
  function Without(ns: seq<Note>, id: string): (r: seq<Note>)
    ensures |r| <= |ns|
    ensures forall n :: n in r <==> n in ns && !HasId(n, id)
    ensures (forall j :: 0 <= j < |ns| ==> !HasId(ns[j], id)) ==> r == ns
  {
    if ns == [] then []
    else
      var rest := Without(ns[1..], id);
      assert forall n :: n in ns <==> n == ns[0] || n in ns[1..];
      if HasId(ns[0], id) then rest else [ns[0]] + rest
  }

  /** Removal keeps the order of what remains: it distributes over
      concatenation. */
  lemma {:induction false} WithoutAppend(a: seq<Note>, b: seq<Note>, id: string)
    ensures Without(a + b, id) == Without(a, id) + Without(b, id)
  {
    if a == [] {
      assert a + b == b;
    } else {
      assert (a + b)[1..] == a[1..] + b;
      WithoutAppend(a[1..], b, id);
    }
  }

  // ---------------------------------------------------------------------
  // The five operations

  /** `stubListNotes`: the stored notes, most recently updated first. */
  function StubList(slot: Slot, d: Draws): (r: Step<seq<Note>>)
    ensures var rd := ReadAll(slot, d);
      r.slot == rd.slot && multiset(r.value) == multiset(rd.value) && SortedDesc(r.value)
  {
    var rd := ReadAll(slot, d);
    Step(SortByUpdatedDesc(rd.value), rd.slot)
  }

  /** `stubGetNote`: the first note with the id, or null; only first-run
      seeding writes to the slot. */
  function StubGet(slot: Slot, d: Draws, id: string): (r: Step<Option<Note>>)
    ensures r.slot == ReadAll(slot, d).slot
    ensures slot.Some? ==> r.slot == slot
    ensures var all := ReadAll(slot, d).value;
      && (r.value.None? <==> forall j :: 0 <= j < |all| ==> !HasId(all[j], id))
      && (r.value.Some? ==> exists k :: 0 <= k < |all| && all[k] == r.value.value && HasId(all[k], id)
                                      && forall j :: 0 <= j < k ==> !HasId(all[j], id))
  {
    var rd := ReadAll(slot, d);
    match IndexOf(rd.value, id)
    case Some(k) => Step(Some(rd.value[k]), rd.slot)
    case None => Step(None, rd.slot)
  }

  /** `stubCreateNote`: the new note, with a fresh id and the current time,
      goes to the head of the stored list and the previous list follows
      unchanged. A missing title becomes "Untitled" (an empty one is kept),
      a missing content the empty string. */
  function StubCreate(slot: Slot, d: Draws, payload: Payload): (r: Step<Note>)
    ensures r.slot == Some(Stored([r.value] + ReadAll(slot, d).value))
    ensures r.value.id == Some(d.newId) && r.value.updatedAt == Some(d.now) && Stamped(r.value)
    ensures r.value.createdAt == Some(d.created)
    ensures payload.title.Some? ==> r.value.title == payload.title.value
    ensures payload.title.None? ==> r.value.title == Untitled
    ensures r.value.content == payload.content.GetOr("")
  {
    var all := ReadAll(slot, d).value;
    var created := NormalizeNote(RawNote(Some(d.newId), Some(payload.title.GetOr(Untitled)),
                                         Some(payload.content.GetOr("")), Some(d.created), Some(d.now)), d.now);
    var next := [created] + all;
    assert AllStamped(next);
    Step(created, WriteAll(next, d.now))
  }

  /** `stubUpdateNote`: for an unknown id, null and nothing written beyond
      seeding. Otherwise only the first note with the id is replaced: its id
      and creation time stay, title and content are overwritten only by
      fields the payload gives, and `updatedAt` becomes now. */
  function StubUpdate(slot: Slot, d: Draws, id: string, payload: Payload): (r: Step<Option<Note>>)
    ensures var rd := ReadAll(slot, d);
      && (r.value.None? <==> IndexOf(rd.value, id).None?)
      && (r.value.None? ==> r.slot == rd.slot)
    ensures var all := ReadAll(slot, d).value;
      IndexOf(all, id).Some? ==>
        var k := IndexOf(all, id).value;
        var prev := all[k];
        var u := r.value.value;
        && r.slot == Some(Stored(all[k := u]))
        && u.id == prev.id && u.createdAt == prev.createdAt && u.updatedAt == Some(d.now)
        && u.title == (if payload.title.Some? then payload.title.value else prev.title)
        && u.content == (if payload.content.Some? then payload.content.value else prev.content)
  {
    var rd := ReadAll(slot, d);
    var all := rd.value;
    match IndexOf(all, id)
    case None => Step(None, rd.slot)
    case Some(k) =>
      var prev := all[k];
      var updated := NormalizeNote(RawNote(prev.id, Some(payload.title.GetOr(prev.title)),
                                           Some(payload.content.GetOr(prev.content)),
                                           prev.createdAt, Some(d.now)), d.now);
      var next := all[k := updated];
      assert AllStamped(next);
      Step(Some(updated), WriteAll(next, d.now))
  }

  /** `stubDeleteNote`: every note with the id is removed, the rest keep
      their order, and the answer is always true. */
  function StubDelete(slot: Slot, d: Draws, id: string): (r: Step<bool>)
    ensures r.value
    ensures r.slot == Some(Stored(Without(ReadAll(slot, d).value, id)))
  {
    var all := ReadAll(slot, d).value;
    var next := Without(all, id);
    assert AllStamped(next) by {
      forall i | 0 <= i < |next| ensures Stamped(next[i]) {
        assert next[i] in all;
      }
    }
    Step(true, WriteAll(next, d.now))
  }

  // ---------------------------------------------------------------------
  // Properties across operations

  /** Deleting an id no note has returns true and leaves the stored notes
      as they read before. */
  lemma DeleteMissingKeepsList(slot: Slot, d: Draws, later: Draws, id: string)
    requires forall n :: n in ReadAll(slot, d).value ==> !HasId(n, id)
    ensures var r := StubDelete(slot, d, id);
      r.value && ReadAll(r.slot, later).value == ReadAll(slot, d).value
  {
    var all := ReadAll(slot, d).value;
    ReadAfterWrite(all, later);
  }

  /** Updating a title and reading the note back: the new title, the old
      content, the update time. */
  lemma UpdateThenGet(slot: Slot, d: Draws, later: Draws, id: string, title: string)
    requires exists n :: n in ReadAll(slot, d).value && HasId(n, id)
    ensures var all := ReadAll(slot, d).value;
      var u := StubUpdate(slot, d, id, Payload(Some(title), None));
      var g := StubGet(u.slot, later, id);
      && g.value.Some?
      && g.value.value.title == title
      && g.value.value.content == all[IndexOf(all, id).value].content
      && g.value.value.updatedAt == Some(d.now)
  {
    var all := ReadAll(slot, d).value;
    var k := IndexOf(all, id).value;
    var u := StubUpdate(slot, d, id, Payload(Some(title), None));
    var next := all[k := u.value.value];
    ReadAfterWrite(next, later);
    IndexOfFirst(next, id, k);
  }

  /** Creating a note at least as recent as every stored one puts it first
      in the listing, ahead of the previous listing. */
  lemma {:induction false} CreateThenList(ns: seq<Note>, d: Draws, later: Draws, payload: Payload)
    requires AllStamped(ns) && SortedDesc(ns)
    requires ns != [] ==> LexLe(UpdatedKey(ns[0]), d.now)
    ensures var c := StubCreate(Some(Stored(ns)), d, payload);
      StubList(c.slot, later).value == [c.value] + ns
  {
    var c := StubCreate(Some(Stored(ns)), d, payload);
    ReadAfterWrite(ns, d);
    ReadAfterWrite([c.value] + ns, later);
    SortKeepsOrdered([c.value] + ns);
  }

  /** Creating on a stored list stores the new note ahead of it. */
  lemma CreateOnStored(ns: seq<Note>, d: Draws, payload: Payload)
    requires AllStamped(ns)
    ensures var c := StubCreate(Some(Stored(ns)), d, payload);
      c.slot == Some(Stored([c.value] + ns)) && AllStamped([c.value] + ns)
  {
    ReadAfterWrite(ns, d);
  }

  /** Notes A, B, C created in that order at increasing times list as C, B, A. */
  lemma ListNewestFirst(d1: Draws, d2: Draws, d3: Draws, d4: Draws, a: Payload, b: Payload, c: Payload)
    requires LexLe(d1.now, d2.now) && LexLe(d2.now, d3.now)
    ensures var s1 := StubCreate(Some([]), d1, a);
      var s2 := StubCreate(s1.slot, d2, b);
      var s3 := StubCreate(s2.slot, d3, c);
      StubList(s3.slot, d4).value == [s3.value, s2.value, s1.value]
  {
    assert Stored([]) == [];
    var s1 := StubCreate(Some([]), d1, a);
    CreateOnStored([], d1, a);
    assert [s1.value] + [] == [s1.value];
    var s2 := StubCreate(s1.slot, d2, b);
    CreateOnStored([s1.value], d2, b);
    var ns := [s2.value] + [s1.value];
    assert SortedDesc(ns);
    CreateThenList(ns, d3, d4, c);
    var s3 := StubCreate(s2.slot, d3, c);
    assert [s3.value] + ns == [s3.value, s2.value, s1.value];
  }
}

=== FILE: text.dfy ===
/** The JavaScript string built-ins the application relies on: `trim`, the
    `\s` character class, `split`, `includes`, `toLowerCase`, decimal
    rendering of numbers and the ordering used to sort timestamps. */
module Text {

  /** The WhiteSpace and LineTerminator code points of ECMA-262, which is
      the set both `String.prototype.trim` and the regular expression `\s`
      match. */
  predicate IsSpace(c: char) {
    var k := c as int;
    (9 <= k <= 13) || k == 0x20 || k == 0xA0 || k == 0x1680
    || (0x2000 <= k <= 0x200A) || k == 0x2028 || k == 0x2029
    || k == 0x202F || k == 0x205F || k == 0x3000 || k == 0xFEFF
  }

  predicate AllSpace(s: string) {
    forall k :: 0 <= k < |s| ==> IsSpace(s[k])
  }

  /** The characters of `s` that are not whitespace, in order. */
  function NonSpace(s: string): string {
    if s == [] then []
    else if IsSpace(s[0]) then NonSpace(s[1..])
    else [s[0]] + NonSpace(s[1..])
  }

  lemma {:induction false} NonSpaceEmpty(s: string)
    ensures NonSpace(s) == [] <==> AllSpace(s)
  {
    if s != [] {
      NonSpaceEmpty(s[1..]);
      if AllSpace(s[1..]) && IsSpace(s[0]) {
        assert forall k :: 0 < k < |s| ==> s[k] == s[1..][k - 1];
      }
    }
  }

  lemma {:induction false} NonSpaceAppend(a: string, b: string)
    ensures NonSpace(a + b) == NonSpace(a) + NonSpace(b)
  {
    if a == [] {
      assert a + b == b;
    } else {
      assert (a + b)[1..] == a[1..] + b;
      NonSpaceAppend(a[1..], b);
    }
  }

  /** The number of whitespace characters at the start of `s`. */
  function LeadingSpaces(s: string): (n: nat)
    ensures n <= |s|
    ensures forall k :: 0 <= k < n ==> IsSpace(s[k])
    ensures n == |s| || !IsSpace(s[n])
  {
    if s == [] || !IsSpace(s[0]) then 0 else 1 + LeadingSpaces(s[1..])
  }

  /** The number of whitespace characters at the end of `s`. */
  function TrailingSpaces(s: string): (n: nat)
    ensures n <= |s|
    ensures forall k :: |s| - n <= k < |s| ==> IsSpace(s[k])
    ensures n == |s| || !IsSpace(s[|s| - n - 1])
  {
    if s == [] || !IsSpace(s[|s| - 1]) then 0 else 1 + TrailingSpaces(s[..|s| - 1])
  }

  /** `String.prototype.trim`: `s` without leading and trailing whitespace.
      The result is the slice of `s` between two all-whitespace margins; it
      is empty exactly when `s` is all whitespace, and otherwise begins and
      ends with a non-whitespace character. */
  function Trim(s: string): (r: string)
    ensures LeadingSpaces(s) + |r| <= |s|
    ensures r == s[LeadingSpaces(s)..LeadingSpaces(s) + |r|]
    ensures forall k :: LeadingSpaces(s) + |r| <= k < |s| ==> IsSpace(s[k])
    ensures r == [] <==> AllSpace(s)
    ensures r != [] ==> !IsSpace(r[0]) && !IsSpace(r[|r| - 1])
  {
    var i := LeadingSpaces(s);
    var j := |s| - TrailingSpaces(s);
    if j <= i then
      assert AllSpace(s);
      []
    else
      s[i..j]
  }

  lemma TrimIdempotent(s: string)
    ensures Trim(Trim(s)) == Trim(s)
  {
    var r := Trim(s);
    if r != [] {
      assert LeadingSpaces(r) == 0;
      assert TrailingSpaces(r) == 0;
    }
  }

  /** A string with visible characters at both ends is its own trim. */
  lemma TrimFixed(t: string)
    requires t != [] && !IsSpace(t[0]) && !IsSpace(t[|t| - 1])
    ensures Trim(t) == t && !AllSpace(t)
  {
    assert LeadingSpaces(t) == 0 && TrailingSpaces(t) == 0;
  }

  /** A string whose visible characters all lie in `x[i..j]`, with
      visible characters at both ends of it, trims to `x[i..j]`. */
  lemma TrimBetween(x: string, i: nat, j: nat)
    requires i < j <= |x| && !IsSpace(x[i]) && !IsSpace(x[j - 1])
    requires forall k :: 0 <= k < i ==> IsSpace(x[k])
    requires forall k :: j <= k < |x| ==> IsSpace(x[k])
    ensures Trim(x) == x[i..j]
  {
    var lead := LeadingSpaces(x);
    assert lead == i;
    var t := Trim(x);
    assert t != [];
    assert |t| == j - i;
  }

  /** A string made of whitespace, a part with visible characters at both
      ends, and whitespace trims to that part. */
  lemma TrimAround(a: string, r: string, b: string)
    requires AllSpace(a) && AllSpace(b)
    requires r != [] && !IsSpace(r[0]) && !IsSpace(r[|r| - 1])
    ensures Trim(a + r + b) == r
  {
    var x := a + r + b;
    assert x[|a|] == r[0];
    assert x[|a| + |r| - 1] == r[|r| - 1];
    assert forall k :: |a| + |r| <= k < |x| ==> x[k] == b[k - |a| - |r|];
    TrimBetween(x, |a|, |a| + |r|);
    assert x[|a|..|a| + |r|] == r;
  }

  /** Where the characters of a string padded with whitespace come from. */
  lemma PaddedSpaces(a: string, s: string, b: string, i: nat, j: nat)
    requires AllSpace(a) && AllSpace(b) && i <= j <= |s|
    requires forall k :: 0 <= k < i ==> IsSpace(s[k])
    requires forall k :: j <= k < |s| ==> IsSpace(s[k])
    ensures var x := a + s + b;
      && (forall k :: 0 <= k < |a| + i ==> IsSpace(x[k]))
      && (forall k :: |a| + j <= k < |x| ==> IsSpace(x[k]))
      && x[|a| + i..|a| + j] == s[i..j]
  {
    var x := a + s + b;
    var n := |a|;
    forall k | 0 <= k < n + i ensures IsSpace(x[k]) {
      if k < n { assert x[k] == a[k]; } else { assert x[k] == s[k - n]; }
    }
    forall k | n + j <= k < |x| ensures IsSpace(x[k]) {
      if k < n + |s| { assert x[k] == s[k - n]; } else { assert x[k] == b[k - n - |s|]; }
    }
  }

  /** A prefix that starts with a visible character is kept whole by
      trimming when the rest also starts with one. */
  lemma TrimFront(p: string, c: string)
    requires p != [] && !IsSpace(p[0]) && c != [] && !IsSpace(c[0])
    ensures Trim(p + c) == p + Trim(c)
  {
    var x := p + c;
    var r := Trim(c);
    assert LeadingSpaces(c) == 0;
    assert r != [] && r == c[..|r|];
    var j := |p| + |r|;
    assert x[0] == p[0];
    assert x[j - 1] == r[|r| - 1];
    forall k | j <= k < |x| ensures IsSpace(x[k]) {
      assert x[k] == c[k - |p|];
    }
    TrimBetween(x, 0, j);
    assert x[0..j] == p + r;
  }

  /** Whitespace added around a string does not change its trim. */
  lemma TrimPadded(a: string, s: string, b: string)
    requires AllSpace(a) && AllSpace(b)
    ensures Trim(a + s + b) == Trim(s)
  {
    var x := a + s + b;
    if AllSpace(s) {
      PaddedSpaces(a, s, b, 0, 0);
      assert AllSpace(x);
    } else {
      var i := LeadingSpaces(s);
      var r := Trim(s);
      var j := i + |r|;
      PaddedSpaces(a, s, b, i, j);
      assert x[|a| + i..|a| + j] == r;
      TrimBetween(x, |a| + i, |a| + j);
    }
  }

  /** Trimming removes whitespace only. */
  lemma NonSpaceTrim(s: string)
    ensures NonSpace(Trim(s)) == NonSpace(s)
  {
    var r := Trim(s);
    var i := LeadingSpaces(s);
    var j := i + |r|;
    var head, tail := s[..i], s[j..];
    assert AllSpace(head);
    assert AllSpace(tail) by {
      forall k | 0 <= k < |tail| ensures IsSpace(tail[k]) {
        assert tail[k] == s[j + k];
      }
    }
    assert s == head + r + tail;
    NonSpaceAround(head, r, tail);
  }

  /** Whitespace around a string adds no visible characters. */
  lemma NonSpaceAround(a: string, r: string, b: string)
    requires AllSpace(a) && AllSpace(b)
    ensures NonSpace(a + r + b) == NonSpace(r)
  {
    NonSpaceAppend(a + r, b);
    NonSpaceAppend(a, r);
    NonSpaceEmpty(a);
    NonSpaceEmpty(b);
  }

  /** The visible characters of a prefix are a prefix of the visible
      characters. */
  lemma NonSpacePrefix(s: string, n: nat)
    requires n <= |s|
    ensures NonSpace(s[..n]) <= NonSpace(s)
  {
    assert s == s[..n] + s[n..];
    NonSpaceAppend(s[..n], s[n..]);
  }

  /** The regular-expression replacement `s.replace(/\s+/g, " ")`: every
      maximal run of whitespace becomes a single space. The result keeps the
      non-whitespace characters of `s` in order, holds no whitespace other
      than U+0020, never two whitespace characters side by side, and starts
      with whitespace exactly when `s` does. */
  function CollapseSpaces(s: string): (r: string)
    ensures |r| <= |s|
    ensures NonSpace(r) == NonSpace(s)
    ensures forall k :: 0 <= k < |r| && IsSpace(r[k]) ==> r[k] == ' '
    ensures forall k :: 0 <= k < |r| - 1 ==> !IsSpace(r[k]) || !IsSpace(r[k + 1])
    ensures r == [] <==> s == []
    ensures r != [] ==> (IsSpace(r[0]) <==> IsSpace(s[0]))
    decreases |s|
  {
    if s == [] then []
    else if IsSpace(s[0]) then
      var i := LeadingSpaces(s);
      var rest := CollapseSpaces(s[i..]);
      NonSpaceAppend(s[..i], s[i..]);
      NonSpaceEmpty(s[..i]);
      assert s == s[..i] + s[i..];
      [' '] + rest
    else
      var rest := CollapseSpaces(s[1..]);
      [s[0]] + rest
  }

  /** `w` holds no whitespace. */
  predicate NoSpace(w: string) {
    forall k :: 0 <= k < |w| ==> !IsSpace(w[k])
  }

  /** A visible first character is copied as it is. */
  lemma CollapseVisibleHead(s: string)
    requires s != [] && !IsSpace(s[0])
    ensures CollapseSpaces(s) == [s[0]] + CollapseSpaces(s[1..])
  {
  }

  /** Collapsing copies a run of visible characters unchanged. */
  lemma {:induction false} CollapseWord(w: string, t: string)
    requires NoSpace(w)
    ensures CollapseSpaces(w + t) == w + CollapseSpaces(t)
    decreases |w|
  {
    if w == [] {
      assert w + t == t;
    } else {
      HeadOfAppend(w, t);
      CollapseVisibleHead(w + t);
      CollapseWord(w[1..], t);
      HeadOfAppend(w, CollapseSpaces(t));
    }
  }

  lemma HeadOfAppend(w: string, t: string)
    requires w != []
    ensures (w + t)[0] == w[0] && (w + t)[1..] == w[1..] + t
    ensures [w[0]] + (w[1..] + t) == w + t
  {
    assert w == [w[0]] + w[1..];
  }

  /** Collapsing turns a whole run of whitespace into one space, in place. */
  lemma CollapseRun(ws: string, t: string)
    requires ws != [] && AllSpace(ws)
    requires t == [] || !IsSpace(t[0])
    ensures CollapseSpaces(ws + t) == [' '] + CollapseSpaces(t)
  {
    var s := ws + t;
    assert s[0] == ws[0];
    assert forall k :: 0 <= k < |ws| ==> s[k] == ws[k];
    if t != [] {
      assert s[|ws|] == t[0];
    }
    assert LeadingSpaces(s) == |ws|;
    assert s[|ws|..] == t;
  }

  /** Together: a word, a run of whitespace and a rest that starts with a
      visible character collapse to the word, one space and the collapsed
      rest. */
  lemma CollapseInPlace(w: string, ws: string, t: string)
    requires NoSpace(w) && ws != [] && AllSpace(ws)
    requires t == [] || !IsSpace(t[0])
    ensures CollapseSpaces(w + ws + t) == w + [' '] + CollapseSpaces(t)
    ensures CollapseSpaces(w) == w
  {
    AppendAssoc(w, ws, t);
    CollapseWord(w, ws + t);
    CollapseRun(ws, t);
    AppendAssoc(w, [' '], CollapseSpaces(t));
    CollapseWord(w, []);
    assert w + [] == w;
  }

  lemma AppendAssoc(a: string, b: string, c: string)
    ensures a + b + c == a + (b + c)
  {
  }

  /** `s.includes(t)`: `t` occurs in `s` as a contiguous slice. */
  predicate Contains(s: string, t: string) {
    StartsWith(s, t) || (s != [] && Contains(s[1..], t))
  }

  /** `s.startsWith(t)`. */
  predicate StartsWith(s: string, t: string) {
    |t| <= |s| && s[..|t|] == t
  }

  /** `s` with every trailing `c` removed: the regular-expression
      replacement `s.replace(/c+$/, "")`. */
  function StripTrailing(s: string, c: char): (r: string)
    ensures |r| <= |s| && r == s[..|r|]
    ensures forall k :: |r| <= k < |s| ==> s[k] == c
    ensures r == [] || r[|r| - 1] != c
  {
    if s != [] && s[|s| - 1] == c then StripTrailing(s[..|s| - 1], c) else s
  }

  lemma StripTrailingIdempotent(s: string, c: char)
    ensures StripTrailing(StripTrailing(s, c), c) == StripTrailing(s, c)
  {
  }

  /** `s.split(sep)`: the pieces between occurrences of `sep`, including
      empty pieces at either end and between adjacent separators. */
  function Split(s: string, sep: char): (parts: seq<string>)
    ensures |parts| >= 1
    ensures forall p :: p in parts ==> sep !in p
  {
    if s == [] then [[]]
    else
      var rest := Split(s[1..], sep);
      if s[0] == sep then [[]] + rest
      else
        assert forall p :: p in rest[1..] ==> p in rest;
        [[s[0]] + rest[0]] + rest[1..]
  }

  /** `parts.join(sep)`. */
  function Join(parts: seq<string>, sep: char): string
    requires |parts| >= 1
  {
    if |parts| == 1 then parts[0] else parts[0] + [sep] + Join(parts[1..], sep)
  }

  /** Splitting and re-joining with the same separator gives back the
      original string: `split` loses nothing. */
  lemma {:induction false} JoinSplit(s: string, sep: char)
    ensures Join(Split(s, sep), sep) == s
  {
    if s != [] {
      var rest := Split(s[1..], sep);
      JoinSplit(s[1..], sep);
      if s[0] == sep {
        assert Split(s, sep) == [[]] + rest;
        assert ([[]] + rest)[1..] == rest;
      } else {
        var parts := Split(s, sep);
        assert parts == [[s[0]] + rest[0]] + rest[1..];
        if |rest| == 1 {
          assert parts == [[s[0]] + rest[0]];
        } else {
          assert parts[1..] == rest[1..];
          assert Join(rest, sep) == rest[0] + [sep] + Join(rest[1..], sep);
        }
      }
    }
  }

  function LowerChar(c: char): char {
    if 'A' <= c <= 'Z' then (c as int + 32) as char else c
  }

  /** `toLowerCase` on the ASCII letters; other characters are kept. */
  function ToLower(s: string): (r: string)
    ensures |r| == |s|
    ensures forall k :: 0 <= k < |s| ==> r[k] == LowerChar(s[k])
  {
    seq(|s|, k requires 0 <= k < |s| => LowerChar(s[k]))
  }

  /** Lower-casing never turns whitespace into a visible character or back. */
  lemma LowerKeepsSpace(c: char)
    ensures IsSpace(LowerChar(c)) <==> IsSpace(c)
  {
  }

  lemma ToLowerIdempotent(s: string)
    ensures ToLower(ToLower(s)) == ToLower(s)
  {
  }

  /** Lower-casing keeps whitespace exactly where it was. */
  lemma LowerSpacesAgree(s: string)
    ensures forall k :: 0 <= k < |s| ==> (IsSpace(ToLower(s)[k]) <==> IsSpace(s[k]))
  {
    forall k | 0 <= k < |s| ensures IsSpace(ToLower(s)[k]) <==> IsSpace(s[k]) {
      LowerKeepsSpace(s[k]);
    }
  }

  lemma LowerSlice(s: string, i: nat, j: nat)
    requires i <= j <= |s|
    ensures ToLower(s)[i..j] == ToLower(s[i..j])
  {
  }

  /** Lower-casing a string whose visible part is `s[i..j]` keeps that
      part in place. */
  lemma TrimLowerSlice(s: string, i: nat, j: nat)
    requires i < j <= |s| && !IsSpace(s[i]) && !IsSpace(s[j - 1])
    requires forall k :: 0 <= k < i ==> IsSpace(s[k])
    requires forall k :: j <= k < |s| ==> IsSpace(s[k])
    ensures Trim(ToLower(s)) == ToLower(s[i..j])
  {
    LowerSpacesAgree(s);
    LowerSlice(s, i, j);
    TrimBetween(ToLower(s), i, j);
  }

  /** Trimming and lower-casing commute. */
  lemma TrimLower(s: string)
    ensures Trim(ToLower(s)) == ToLower(Trim(s))
  {
    if AllSpace(s) {
      LowerSpacesAgree(s);
    } else {
      var r := Trim(s);
      var i := LeadingSpaces(s);
      assert s[i..i + |r|] == r;
      TrimLowerSlice(s, i, i + |r|);
    }
  }

  function DigitChar(d: nat): char
    requires d < 10
  {
    ('0' as int + d) as char
  }

  /** The decimal rendering of `n`, as a template literal prints a number. */
  function Decimal(n: nat): (r: string)
    ensures |r| >= 1
    ensures forall k :: 0 <= k < |r| ==> '0' <= r[k] <= '9'
    ensures |r| > 1 ==> r[0] != '0'
  {
    if n < 10 then [DigitChar(n)] else Decimal(n / 10) + [DigitChar(n % 10)]
  }

  /** The value of a string of decimal digits. */
  function DecimalValue(s: string): nat
    requires forall k :: 0 <= k < |s| ==> '0' <= s[k] <= '9'
  {
    if s == [] then 0
    else 10 * DecimalValue(s[..|s| - 1]) + (s[|s| - 1] as int - '0' as int)
  }

  /** Reading the decimal rendering back gives the number. */
  lemma {:induction false} DecimalRoundTrip(n: nat)
    ensures DecimalValue(Decimal(n)) == n
  {
    if n >= 10 {
      DecimalRoundTrip(n / 10);
      var r := Decimal(n);
      assert r[..|r| - 1] == Decimal(n / 10);
    }
  }

  /** Code-point lexicographic order on strings, `a <= b`. */
  predicate LexLe(a: string, b: string) {
    a == [] || (b != [] && (a[0] < b[0] || (a[0] == b[0] && LexLe(a[1..], b[1..]))))
  }

  lemma {:induction false} LexLeTotal(a: string, b: string)
    ensures LexLe(a, b) || LexLe(b, a)
  {
    if a != [] && b != [] && a[0] == b[0] {
      LexLeTotal(a[1..], b[1..]);
    }
  }

  lemma {:induction false} LexLeTransitive(a: string, b: string, c: string)
    requires LexLe(a, b) && LexLe(b, c)
    ensures LexLe(a, c)
  {
    if a != [] && a[0] == b[0] && b[0] == c[0] {
      LexLeTransitive(a[1..], b[1..], c[1..]);
    }
  }

  lemma {:induction false} LexLeAntisymmetric(a: string, b: string)
    requires LexLe(a, b) && LexLe(b, a)
    ensures a == b
  {
    if a != [] && b != [] {
      LexLeAntisymmetric(a[1..], b[1..]);
      assert a == [a[0]] + a[1..];
      assert b == [b[0]] + b[1..];
    }
  }
}

=== FILE: wrappers.dfy ===
/** Optional values and results with an error, used for JavaScript's
    null/undefined and for rejected promises. */
module Wrappers {

  /** `None` stands for a missing value (null or undefined). */
  datatype Option<+T> = None | Some(value: T) {

    /** The value, or `default` when it is missing: JavaScript's `x ?? default`. */
    function GetOr(default: T): T {
      match this
      case Some(v) => v
      case None => default
    }
  }

  /** A computation that either produces a value or fails with an error. */
  datatype Result<+R, +E> = Success(value: R) | Failure(error: E)
}
